=== FILE: README.md ===
# strn node-table pipeline, modelled in Dafny

strn scrapes a public statistics page that lists Saturn nodes in one HTML
table, one `<tr>` per node. The program does two things with that table:

- **Dashboard.** `getData` (api/index.go) turns the table into a response.
  The response holds the number of nodes that are up and every row's markup.
  It also holds the number of nodes per ISP and per country, sorted by count.
- **Ingest.** `Start` (cron/cron.go), also present as `cron` in api/index.go,
  turns each node that is not marked down into a nine-column record. It then
  queues one `INSERT` statement per record.

Both paths use the same field extractors:

- `ParseId`, `ParseISP`, `ParseLocation`, `ParseDisk`, `ParseTTFB`,
  `ParseUpload` and `ParseWeight` cut a row's cells on literal markers and
  convert the pieces.
- The markers are `<br`, `(`, `24h`, `:` and `@`.
- `clear` tidies the pieces.
- `humanReadableToInt`, `bandwidthToMbps` and `toGiB` normalise units.

This project models that pipeline as pure functions over immutable data:

- A table row is a `Row`: its inner markup plus a sequence of `Cell`s.
- A cell carries its markup, its text, and its element children. Each child
  has its text and its class set.
- A Go panic is an explicit outcome. The out-of-range `[1]` index and the
  short-string slice become `Result.Panic(fault)`. It propagates with `:-`,
  so one bad row aborts the whole loop, as the panic does in Go.

Modules, one per file:

| file | module | models |
|---|---|---|
| outcome.dfy | `Outcome` | `Option`, and `Result` with a panic outcome |
| gostrings.dfy | `GoStrings` | the `strings` functions the source calls: `TrimSpace`, `Split`, `Replace`, `ReplaceAll`, `ToLower`, and Go's byte length; `Join` and `Index` are helpers that define `ReplaceAll` and `Replace` |
| gonumbers.dfy | `GoNumbers` | `strconv.Atoi`, the decimal subset of `strconv.ParseFloat`, `Itoa`, and truncating division |
| units.dfy | `Units` | the suffix tables, `humanReadableToInt`, `bandwidthToMbps`, `toGiB` |
| rows.dfy | `Rows` | cells and rows, `clear`, and the seven field extractors |
| select.dfy | `Select` | order-preserving selection of the rows a loop keeps, and parsing of the kept rows |
| report.dfy | `Report` | the row loop of `getData`, and `sortIsps` / `sortRegions` |
| ingest.dfy | `Ingest` | the row loop of `Start` / `cron`, and the statement queueing of `batchInsert` |

Where one might expect otherwise, the model follows the code:

- `bandwidthToMbps` slices the last four bytes before it checks the length.
  A text shorter than four bytes therefore panics and does not give 0
  (`Units.ShortBandwidthPanics`).
- `ParseISP` indexes `[1]` on the pieces around `<br`. Markup with no line
  break therefore panics and does not give an empty ISP.
- `ParseTTFB` keeps the text BEFORE the first "24h" and then takes the piece
  between the first and the second ':'. So a cell reading "24h: 42 ms"
  panics (`Rows.SampleTtfbPanics`). A cell reading "TTFB: 42 24h: 50" gives
  42 (`Rows.SampleTtfb`). A piece that is not an integer gives 0, so
  "TTFB: 42 ms 24h" gives 0 (`Rows.SampleTtfbNotANumber`).

## Model

| member | source | states |
|---|---|---|
| Units.HumanReadableToInt | api/index.go:295-310 | panics with a slice fault exactly when the text, lower-cased with its first 'i' removed, is shorter than two bytes; a non-zero result needs a known two-letter suffix after at least one character |
| Units.SizeOfKnownSuffix | api/index.go:297-305 | a text that normalises to a number followed by a known suffix reads as floor(multiplier · number) |
| Units.SizeOfUnknownSuffix | api/index.go:299-301 | a text whose last two normalised characters are no known suffix reads as 0 |
| Units.SizeOfUnparsableNumber | api/index.go:301-309 | a known suffix after something that is not a number reads as 0 |
| Units.SizeRoundTrip | api/index.go:282-310 | a whole number written with any unit label, in any case, with or without the binary 'i' and padding, reads back as number · bytes per unit |
| Units.SuffixOfUnit | api/index.go:282-288 | the suffix table agrees with an independent definition of the units (1024^k bytes) |
| Units.ToGiB | api/index.go:326-328 | the result is the whole number of GiB in the byte count, truncated toward zero for negative counts |
| Units.WholeGiB | api/index.go:326-328 | a whole number of GiB converts back to that number |
| Units.DiskRoundTrip | api/index.go:296-310 | a whole number of GiB, however spelled, comes back as that many GiB after `toGiB` |
| Units.TenGiB | api/index.go:296-310 | "10GiB" is 10 GiB |
| Units.KibiMebibytes | api/index.go:296-310 | "1024MiB" is 1 GiB |
| Units.BogusSize | api/index.go:296-310 | "bogus" reads as 0 |
| Units.FirstIRemoved | api/index.go:298 | the FIRST 'i' is removed wherever it is: "i10GiB" lower-cases and loses its leading 'i' to give "10gib", whose suffix "ib" is no unit, so it reads as 0 |
| Units.BandwidthToMbps | api/index.go:312-324 | panics with a slice fault exactly when the lower-cased text is shorter than four bytes; a non-zero result needs a known four-letter suffix after at least one character |
| Units.BandwidthOfKnownSuffix | api/index.go:313-320 | a number followed by "mbps" or "gbps", in any case, reads as floor(multiplier · number) |
| Units.BandwidthOfUnknownSuffix | api/index.go:314-316 | a text whose last four lower-cased characters are no known suffix reads as 0 |
| Units.BandwidthOfUnparsableNumber | api/index.go:316-323 | a known suffix after something that is not a number reads as 0 |
| Units.BandwidthRoundTrip | api/index.go:290-293 | a whole number of Mbps or Gbps, in any case and with padding, reads back in Mbps |
| Units.FiveHundredMbps | api/index.go:312-324 | "500Mbps" is 500 |
| Units.TwoGbps | api/index.go:312-324 | "2Gbps" is 2000 |
| Units.ShortBandwidthPanics | api/index.go:314-315 | a one-character bandwidth panics on the four-byte slice |
| Rows.Clear | api/index.go:275-280 | the result holds no '>' and has no white space at either end |
| Rows.ClearSpec | api/index.go:275-280 | the result is the trim of the text with every "/>" dropped, scanning left to right, and then every '>' dropped |
| Rows.ClearDropsGt | api/index.go:275-280 | a lone '>' not preceded by '/' is dropped and the text on both sides is joined, then trimmed |
| Rows.ClearDropsSelfClosing | api/index.go:275-280 | a "/>" is dropped whole and the text on both sides is joined, then trimmed |
| Rows.SampleClear | api/index.go:275-280 | " a/>b>c " gives "abc" |
| Rows.ClearFixes | api/index.go:275-280 | text without '>' and without outer white space is unchanged |
| Rows.ClearIdempotent | api/index.go:275-280 | cleaning twice is cleaning once |
| Rows.ParseId | api/index.go:209-212 | the id is trimmed and empty when the first cell has no element child; down holds exactly when the third child of the first cell has class "down" |
| Rows.IdRoundTrip | api/index.go:209-212 | an identifier written with padding in the first child comes back unpadded |
| Rows.ParseIsp | api/index.go:214-222 | an unrenderable cell gives ""; otherwise it panics exactly when the markup has no `<br`; a result holds no '>' and is trimmed |
| Rows.IspRoundTrip | api/index.go:214-222 | an ISP written after the first rendered `<br/>` (and before any further line break) is read back exactly |
| Rows.SampleIsp | api/index.go:214-222 | "X<br/>Acme" gives "Acme" |
| Rows.ParseLocation | api/index.go:224-233 | it panics exactly when the markup has no `<br`; the city is the markup before the first `<br`, unmodified; the country holds no '>' and is trimmed |
| Rows.LocationRoundTrip | api/index.go:224-233 | a city and a country written around the first rendered line break are read back |
| Rows.SampleLocation | api/index.go:224-233 | "Berlin<br/>DE" gives city "Berlin", country "DE" |
| Rows.ParseDisk | api/index.go:235-245 | it panics exactly when the size conversion does; the result is the whole number of GiB in the byte count, truncated toward zero for negative counts ("-5GiB" gives -5) |
| Rows.DiskTextOf | api/index.go:240-242 | a size with padding, followed by nothing, a "(...)" note or a line break, is cut out exactly |
| Rows.DiskCellRoundTrip | api/index.go:235-245 | a size written in the fifth cell, before any note or line break, is read back in whole GiB; n GiB gives n |
| Rows.SampleDisk | api/index.go:235-245 | "5GiB (50%)" gives 5 |
| Rows.ParseTtfb | api/index.go:247-257 | it panics exactly when the text before the first "24h" has no ':'; a result is a 64-bit integer |
| Rows.TtfbRoundTrip | api/index.go:247-257 | an integer written with padding after a label that holds no ':' and no "24h", and before the "24h" marker or the end, is read back |
| Rows.SampleTtfb | api/index.go:247-257 | "TTFB: 42 24h: 50" gives 42 |
| Rows.TtfbNotAnInteger | api/index.go:250-255 | when the piece after the first ':' is not an integer the result is 0, not a panic |
| Rows.TtfbSecondColon | api/index.go:249-256 | when no "24h" comes before the marker, the integer is read from between the first and the second ':' only; what follows the second ':' is ignored |
| Rows.SampleTtfbNotANumber | api/index.go:247-257 | "TTFB: 42 ms 24h" gives 0 |
| Rows.SampleTtfbHourLabel | api/index.go:247-257 | "1h: 42 24h: 50" gives 42: an 'h' in the label does not end the latency text |
| Rows.SampleTtfbPanics | api/index.go:249-250 | "24h: 42 ms" panics: the text before "24h" is empty |
| Rows.ParseUpload | api/index.go:259-265 | the traffic conversion's slice panic comes first; then a missing '@' panics on the index; otherwise it gives the traffic in GiB and the rate after '@', cut at '(' |
| Rows.RateTextOf | api/index.go:263 | the rate text after '@' is the rate with its padding and any "(...)" note removed |
| Rows.UploadRoundTrip | api/index.go:259-265 | a size, '@', and a bandwidth with an optional note are read back as GiB and Mbps |
| Rows.SampleUpload | api/index.go:259-265 | "3GiB @ 100Mbps (avg)" gives 3 GiB and 100 Mbps |
| Rows.ParseWeight | api/index.go:267-273 | a result is a 64-bit integer, and it is -1 whenever the trimmed last cell is not an integer |
| Rows.WeightRoundTrip | api/index.go:267-273 | a 64-bit integer with padding in the last cell is read back |
| Rows.SampleWeight | api/index.go:267-273 | "7" gives 7 |
| Rows.SampleBadWeight | api/index.go:267-273 | "bad" gives -1 |
| Report.Bump | api/index.go:73-78 | one more occurrence of the key: its count goes up by one, other counts stay, every key stays positive |
| Report.ScanOk | api/index.go:58-87 | the loop finishes exactly when no readable row panics in `ParseISP` or `ParseLocation` |
| Report.ScanNodes | api/index.go:59-70 | one node per readable row, in document order, with the row's id and its markup wrapped in `<tr>` |
| Report.ScanCount | api/index.go:66-69 | the count is the number of readable rows that are not down |
| Report.ScanIsps | api/index.go:72-78 | each ISP's count is the number of readable rows that name it; every listed ISP is counted at least once |
| Report.ScanRegions | api/index.go:80-86 | each country's count is the number of readable rows that name it; every listed country is counted at least once |
| Report.ScanSkipsUnreadable | api/index.go:59-63 | a row whose markup cannot be rendered, wherever it sits, changes nothing |
| Report.ScanSums | api/index.go:53-87 | the ISP counts add up to the number of nodes, and so do the country counts |
| Report.Insert | api/index.go:339-341 | inserting an entry keeps the other entries, the order by descending count, distinct names and the running total |
| Report.SortCounts | api/index.go:330-360 | the result lists exactly the map's (name, count) entries, once each, by non-increasing count, with the same total |
| Report.ListedCounts | api/index.go:330-337 | a listing of a count map holds one entry per counted name, with its count |
| Report.GetData | api/index.go:47-94 | fails exactly on a panicking row; otherwise count = non-down readable rows, one node per readable row in order, and each sorted, distinct ISP and region list holds exactly the names counted, with their counts, adding up to the number of nodes |
| Select.Indices | cron/cron.go:21-24 | the kept positions are in range, satisfy the test, strictly increase, and include every position that satisfies it |
| Select.IndicesCount | cron/cron.go:44 | the number of kept positions is the number of positions that satisfy the test |
| Select.CollectOk | cron/cron.go:21-43 | collecting fails exactly when a kept element fails to parse |
| Select.CollectValues | cron/cron.go:21-43 | one result per kept element, in order, each what parsing that element gives |
| Select.CollectSkips | cron/cron.go:24 | an element that is not kept, wherever it sits, is never parsed |
| Ingest.CollectActiveOk | cron/cron.go:21-43 | the loop finishes exactly when every row not marked down parses |
| Ingest.CollectActiveRecords | cron/cron.go:21-43 | one record per row not marked down, in document order, each what that row parses to |
| Ingest.RecordFields | cron/cron.go:23-41 | each field of a record is what its extractor reads from the row |
| Ingest.DownRowIgnored | cron/cron.go:24 | a down row, however malformed, cannot make the loop fail or change its records |
| Ingest.ArgsInColumnOrder | cron/cron.go:61-64 | the k-th bound argument is the record field named by the k-th column of the statement (`Columns` is that column list, transcribed from the statement text) |
| Ingest.ArgsRoundTrip | cron/cron.go:64 | the bound arguments determine the record |
| Ingest.QueueInserts | cron/cron.go:60-65 | one statement per record, in record order, each with the insert statement and the record's nine values in column order |
| Ingest.Start | cron/cron.go:14-45 | fails exactly when an active row panics; otherwise one insert per active row, in document order, whose values are what the extractors read from that row |
| GoStrings.Utf8Len | api/index.go:299 | Go's `len` of a string is its UTF-8 byte count: at least the number of characters, and equal to it on ASCII text (the same `len` guards the four-byte slice at api/index.go:314) |
| GoStrings.Split | api/index.go:219 | the pieces join back to the input, none contains the separator, and there are at least two exactly when the separator occurs |
| GoStrings.ReplaceFirstSpec | api/index.go:298 | without an occurrence the text is unchanged; otherwise the earliest occurrence, and only it, is replaced and the rest is kept |
| GoStrings.ReplaceAllRemoves | api/index.go:276-277 | replacing a pattern by "" everywhere is the left-to-right scan that drops each non-overlapping occurrence and resumes after it |
| GoStrings.RemoveAfter | api/index.go:276-277 | when a pattern's last character occurs neither in the text before it nor earlier in the pattern, that occurrence is the first one dropped, and the text before it is kept |
| GoStrings.ToLowerSpec | api/index.go:297 | lower-casing keeps the length, leaves no ASCII capital, and changes a character only when it is a capital, which becomes its small letter |
| GoStrings.ToLowerFolds | api/index.go:313 | two texts lower-case to the same text exactly when they differ only in the case of ASCII letters |
| GoStrings.TrimSpace | api/index.go:242 | the result is a substring with only white space cut from both ends, and neither of its ends is white space |
| GoStrings.TrimSpacePadded | api/index.go:242 | trimming undoes padding with white space on either side |
| GoNumbers.Atoi | api/index.go:252 | a result is a 64-bit integer, and the text ends in a digit |
| GoNumbers.AtoiOfIntText | api/index.go:252 | every 64-bit integer written in decimal is read back |
| GoNumbers.AtoiOutOfRange | api/index.go:269 | a decimal numeral outside the 64-bit range is not an integer |
| GoNumbers.GoDiv | api/index.go:327 | the quotient truncates toward zero |
| GoNumbers.ParseDecimalAccepts | api/index.go:303 | a text parses exactly when, after an optional sign, it is digits with at most one '.' and at least one digit |
| GoNumbers.ParseDecimalWithDot | api/index.go:303 | digits, a dot and digits parse as the value of the whole part plus the fraction over 10^len(fraction) |

## Left out

- Fetching the page (`GetHtml`) and the HTTP handler: these are I/O. The
  model starts from the table body's rows.
- goquery's HTML parsing and selection. A row is given already split into
  cells. `Eq(i)` past the last cell is modelled as an empty selection:
  empty text, and markup "". Failure to render markup is an explicit
  `None`.
- The database: the pool, `DATABASE_URL`, `SendBatch` and `Close`. The
  model stops at the list of queued statements.
- Logging (`log.Println`) has no effect on results and is not modelled.
- The web front end and the server setup in main.go.
- Map iteration order in `sortIsps` / `sortRegions`. Entries are taken from
  the map in an unspecified order, and ties end up in an unspecified order.
  `Report.SortCounts` promises only the set of entries and their order by
  count.
- Units.HumanReadableToInt: `strconv.ParseFloat(…, 32)` is modelled on an
  optional sign, digits and an optional fraction, computed exactly. The
  following are not modelled:
  - float32 rounding;
  - exponents, hexadecimal, "inf"/"nan" and underscores;
  - range errors;
  - overflow of the float-to-int conversion.
- Units.BandwidthToMbps: the same decimal subset of `strconv.ParseFloat`,
  computed exactly. The program rounds to float32 first, so "0.7Gbps" gives
  699 there (float32 0.7 times 1000 is 699.99998...) but 700 here.
- Units.SizeRoundTrip: holds for every whole number only because float32
  rounding is not modelled. In the program it is exact only up to 2^24:
  "16777217KB" parses as 16777216 KB.
- Units.DiskRoundTrip: exact only up to 2^24 units in the program, as for
  Units.SizeRoundTrip.
- Units.BandwidthRoundTrip: exact only up to 2^24 Mbps or Gbps in the
  program, for the same float32 reason.
- Rows.DiskCellRoundTrip: exact only up to 2^24 units in the program, as for
  Units.SizeRoundTrip.
- Rows.UploadRoundTrip: exact only up to 2^24 units of traffic and of rate in
  the program, as for Units.SizeRoundTrip.
- GoStrings.ToLower: only ASCII letters are lower-cased. Go's
  `strings.ToLower` also maps non-ASCII letters.
- Strings are sequences of Unicode scalar values. Go indexes strings by byte,
  and that matters only for the short-string slice panics, which are
  measured in UTF-8 bytes (`GoStrings.Utf8Len`).
- Ingest.Start: `cron` in api/index.go:97-129 is the same loop as `Start`,
  so one member models both.
- Report.SortCounts: `sortRegions` (api/index.go:346-360) is the same code
  as `sortIsps`, so one member models both.

=== FILE: gonumbers.dfy ===
/**
 * The numeric conversions the scraper uses: `strconv.Atoi`, the decimal
 * part of `strconv.ParseFloat`, and Go's truncating integer division.
 */
module GoNumbers {
  import opened Outcome

  const MinInt64: int := -0x8000_0000_0000_0000
  const MaxInt64: int := 0x7FFF_FFFF_FFFF_FFFF

  predicate IsDigit(c: char) {
    '0' <= c <= '9'
  }

  predicate AllDigits(s: string) {
    forall i :: 0 <= i < |s| ==> IsDigit(s[i])
  }

  /** The value of a string of decimal digits, most significant first. */
  function DigitsValue(s: string): nat
    requires AllDigits(s)
  {
    if |s| == 0 then 0
    else DigitsValue(s[..|s| - 1]) * 10 + (s[|s| - 1] as int - '0' as int)
  }

  function DigitChar(d: nat): (c: char)
    requires d < 10
    ensures IsDigit(c) && c as int - '0' as int == d
  {
    ('0' as int + d) as char
  }

  /** `strconv.Itoa` of a natural number: its decimal digits without leading zeros. */
  function NatText(n: nat): (s: string)
    ensures |s| > 0 && AllDigits(s)
  {
    if n < 10 then [DigitChar(n)] else NatText(n / 10) + [DigitChar(n % 10)]
  }

  /** `strconv.Itoa`. */
  function IntText(i: int): string {
    if i < 0 then "-" + NatText(-i) else NatText(i)
  }

  function Pow10(k: nat): (p: nat)
    ensures p >= 1
  {
    if k == 0 then 1 else 10 * Pow10(k - 1)
  }

  /** An optional leading '+' or '-', and whether it was '-'. */
  function SplitSign(s: string): (bool, string) {
    if |s| > 0 && (s[0] == '+' || s[0] == '-') then (s[0] == '-', s[1..]) else (false, s)
  }

  /**
   * `strconv.Atoi`: an optional sign followed by at least one decimal digit,
   * nothing else, and a value that fits a 64-bit `int`.
   */
  function Atoi(s: string): (r: Option<int>)
    ensures r.Some? ==> MinInt64 <= r.value <= MaxInt64
    ensures r.Some? ==> |s| > 0 && IsDigit(s[|s| - 1])
  {
    var (negative, digits) := SplitSign(s);
    if |digits| == 0 || !AllDigits(digits) then None
    else
      var magnitude: int := DigitsValue(digits);
      var v: int := if negative then -magnitude else magnitude;
      if MinInt64 <= v <= MaxInt64 then Some(v) else None
  }

  /**
   * The decimal forms `strconv.ParseFloat` accepts: an optional sign, then
   * digits with at most one '.', at least one digit in all. The value is
   * exact; see README for what this leaves out.
   */
  function ParseDecimal(s: string): (r: Option<real>)
    ensures r.Some? ==> |s| > 0
  {
    var (negative, body) := SplitSign(s);
    var (whole, fraction) :=
      match IndexOfDot(body)
      case None => (body, "")
      case Some(d) => (body[..d], body[d + 1..]);
    if |whole| + |fraction| == 0 || !AllDigits(whole) || !AllDigits(fraction) then None
    else
      var magnitude := DecimalValue(whole, fraction);
      Some(if negative then -magnitude else magnitude)
  }

  /** The value of the decimal numeral `whole.fraction`. */
  function DecimalValue(whole: string, fraction: string): real
    requires AllDigits(whole) && AllDigits(fraction)
  {
    DigitsValue(whole) as real + DigitsValue(fraction) as real / Pow10(|fraction|) as real
  }

  /** The position of the first '.' in `s`. */
  function IndexOfDot(s: string): (r: Option<nat>)
    ensures r.Some? ==> r.value < |s| && s[r.value] == '.' && '.' !in s[..r.value]
    ensures r.None? ==> '.' !in s
  {
    if |s| == 0 then None
    else if s[0] == '.' then Some(0)
    else match IndexOfDot(s[1..])
      case None => None
      case Some(d) => Some(d + 1)
  }

  /** Go's `/` on integers, which truncates toward zero. */
  function GoDiv(a: int, b: int): (q: int)
    requires b > 0
    ensures a >= 0 ==> q >= 0 && q * b <= a < (q + 1) * b
    ensures a < 0 ==> q <= 0 && (q - 1) * b < a <= q * b
  {
    if a >= 0 then DivBounds(a, b); a / b
    else DivBounds(-a, b); -((-a) / b)
  }

  /** Euclidean division of a natural number brackets it between two multiples of the divisor. */
  lemma DivBounds(a: nat, b: int)
    requires b > 0
    ensures a / b >= 0 && (a / b) * b <= a < (a / b) * b + b
  {
    var q, r := a / b, a % b;
    assert a == q * b + r && 0 <= r < b;
  }

  // ---------------------------------------------------------------------
  // Round trips

  /** Reading back a rendered natural number gives the number. */
  lemma {:induction false} NatTextValue(n: nat)
    ensures DigitsValue(NatText(n)) == n
  {
    if n >= 10 {
      var s := NatText(n);
      assert s[..|s| - 1] == NatText(n / 10);
      NatTextValue(n / 10);
    }
  }

  /** `Atoi` reads back what `Itoa` writes, for every 64-bit value. */
  lemma AtoiOfIntText(i: int)
    requires MinInt64 <= i <= MaxInt64
    ensures Atoi(IntText(i)) == Some(i)
  {
    if i < 0 {
      assert SplitSign(IntText(i)) == (true, NatText(-i));
      NatTextValue(-i);
    } else {
      NatTextValue(i);
    }
  }

  /** Outside the 64-bit range `Atoi` fails even on well-formed digits. */
  lemma AtoiOutOfRange(i: int)
    requires i < MinInt64 || i > MaxInt64
    ensures Atoi(IntText(i)) == None
  {
    if i < 0 {
      assert SplitSign(IntText(i)) == (true, NatText(-i));
      NatTextValue(-i);
    } else {
      NatTextValue(i);
    }
  }

  /** A text that opens with neither a sign nor a digit is not an integer. */
  lemma AtoiRejectsLeading(s: string)
    requires |s| > 0 && !IsDigit(s[0]) && s[0] != '+' && s[0] != '-'
    ensures Atoi(s) == None
  {
    assert SplitSign(s).1 == s;
  }

  /** Digits and at most one '.', with at least one digit. */
  predicate DecimalBody(b: string) {
    && |b| > 0 && b != "."
    && (forall i :: 0 <= i < |b| ==> IsDigit(b[i]) || b[i] == '.')
    && (forall i, j :: 0 <= i < j < |b| && b[i] == '.' ==> b[j] != '.')
  }

  /** `ParseDecimal` accepts exactly an optional sign followed by a decimal body. */
  lemma ParseDecimalAccepts(s: string)
    ensures ParseDecimal(s).Some? <==> DecimalBody(SplitSign(s).1)
  {
    var body := SplitSign(s).1;
    match IndexOfDot(body)
    case None =>
      assert DecimalBody(body) <==> |body| > 0 && AllDigits(body);
    case Some(d) =>
      DotSplitAccepts(body, d);
  }

  lemma DotSplitAccepts(b: string, d: nat)
    requires d < |b| && b[d] == '.' && '.' !in b[..d]
    ensures DecimalBody(b) <==> |b| > 1 && AllDigits(b[..d]) && AllDigits(b[d + 1..])
  {
    var digitsElsewhere := forall i :: 0 <= i < |b| && i != d ==> IsDigit(b[i]);
    assert b == b[..d] + [b[d]] + b[d + 1..];
    assert |b| > 1 <==> b != "." by {
      assert "."[0] == b[d];
    }
    if DecimalBody(b) {
      forall i | 0 <= i < |b| && i != d ensures IsDigit(b[i]) {
        if i < d {
          assert b[..d][i] == b[i];
        }
      }
    }
    if digitsElsewhere {
      forall i | 0 <= i < |b| ensures IsDigit(b[i]) || b[i] == '.' {
      }
    }
    assert digitsElsewhere <==> AllDigits(b[..d]) && AllDigits(b[d + 1..]) by {
      if digitsElsewhere {
        forall i | 0 <= i < d ensures IsDigit(b[..d][i]) {
          assert b[..d][i] == b[i];
        }
        var f := b[d + 1..];
        forall i | 0 <= i < |f| ensures IsDigit(f[i]) {
          assert f[i] == b[d + 1 + i];
        }
      }
      if AllDigits(b[..d]) && AllDigits(b[d + 1..]) {
        forall i | 0 <= i < |b| && i != d ensures IsDigit(b[i]) {
          if i < d {
            assert b[i] == b[..d][i];
          } else {
            assert b[i] == b[d + 1..][i - d - 1];
          }
        }
      }
    }
  }

  /** A rendered natural number parses as that number. */
  lemma ParseDecimalOfNatText(n: nat)
    ensures ParseDecimal(NatText(n)) == Some(n as real)
  {
    var s := NatText(n);
    assert SplitSign(s) == (false, s);
    assert IndexOfDot(s) == None;
    NatTextValue(n);
  }

  /** Digits, a dot and digits parse as the whole part plus the fraction. */
  lemma ParseDecimalWithDot(t: string, f: string)
    requires |t| > 0 && AllDigits(t) && AllDigits(f)
    ensures ParseDecimal(t + "." + f) == Some(DecimalValue(t, f))
  {
    var s := t + "." + f;
    assert s[0] == t[0];
    assert SplitSign(s) == (false, s);
    IndexOfDotAfter(t, f);
    assert s[..|t|] == t;
    assert s[|t| + 1..] == f;
  }

  lemma {:induction false} IndexOfDotAfter(w: string, f: string)
    requires AllDigits(w)
    ensures IndexOfDot(w + "." + f) == Some(|w|)
    decreases |w|
  {
    if |w| > 0 {
      assert (w + "." + f)[1..] == w[1..] + "." + f;
      IndexOfDotAfter(w[1..], f);
    }
  }
}

=== FILE: gostrings.dfy ===
/**
 * The slice of Go's `strings` package the scraper relies on: `ToLower`,
 * `TrimSpace`, `Split`, `Replace` and `ReplaceAll`, stated over Dafny
 * strings (sequences of Unicode scalar values), plus Go's byte length.
 * `Index` and `Join` are helpers that define `Replace` and `ReplaceAll`.
 */
module GoStrings {
  import opened Outcome

  /** Go's `unicode.IsSpace`, the predicate behind `strings.TrimSpace`. */
  predicate IsSpace(c: char) {
    || c == '\t' || c == '\n' || c == '\U{000B}' || c == '\U{000C}' || c == '\r' || c == ' '
    || c == '\U{0085}' || c == '\U{00A0}' || c == '\U{1680}'
    || ('\U{2000}' <= c <= '\U{200A}')
    || c == '\U{2028}' || c == '\U{2029}' || c == '\U{202F}' || c == '\U{205F}' || c == '\U{3000}'
  }

  predicate AllSpace(s: string) {
    forall i :: 0 <= i < |s| ==> IsSpace(s[i])
  }

  /** Neither end of `s` is white space. */
  predicate Trimmed(s: string) {
    |s| == 0 || (!IsSpace(s[0]) && !IsSpace(s[|s| - 1]))
  }

  /** `unicode.ToLower` restricted to ASCII letters. */
  function LowerChar(c: char): char {
    if 'A' <= c <= 'Z' then (c as int + 32) as char else c
  }

  function ToLower(s: string): string {
    seq(|s|, i requires 0 <= i < |s| => LowerChar(s[i]))
  }

  /**
   * Lower-casing keeps the length, leaves no ASCII capital, and changes a
   * character only when it is a capital, which then moves to its small letter.
   */
  lemma ToLowerSpec(s: string)
    ensures |ToLower(s)| == |s|
    ensures forall i :: 0 <= i < |s| ==> !('A' <= ToLower(s)[i] <= 'Z')
    ensures forall i :: 0 <= i < |s| && ToLower(s)[i] != s[i] ==>
      'A' <= s[i] <= 'Z' && ToLower(s)[i] as int == s[i] as int + 32
  {
  }

  /** Two characters that are equal or the two cases of one ASCII letter. */
  predicate SameLetter(c: char, d: char) {
    c == d || ('A' <= c <= 'Z' && d as int == c as int + 32) || ('A' <= d <= 'Z' && c as int == d as int + 32)
  }

  /** Texts lower-case to the same text exactly when they differ only in the case of ASCII letters. */
  lemma ToLowerFolds(s: string, t: string)
    ensures ToLower(s) == ToLower(t) <==>
      |s| == |t| && forall i :: 0 <= i < |s| ==> SameLetter(s[i], t[i])
  {
    if ToLower(s) == ToLower(t) {
      forall i | 0 <= i < |s| ensures SameLetter(s[i], t[i]) {
        assert LowerChar(s[i]) == ToLower(s)[i] == ToLower(t)[i] == LowerChar(t[i]);
      }
    }
    if |s| == |t| && forall i :: 0 <= i < |s| ==> SameLetter(s[i], t[i]) {
      forall i | 0 <= i < |s| ensures ToLower(s)[i] == ToLower(t)[i] {
        assert SameLetter(s[i], t[i]);
      }
    }
  }

  /** Number of bytes of the UTF-8 encoding of `c`. */
  function Utf8Width(c: char): nat {
    if c as int < 0x80 then 1
    else if c as int < 0x800 then 2
    else if c as int < 0x1_0000 then 3
    else 4
  }

  /** Go's `len` of a string: its length in UTF-8 bytes. */
  function Utf8Len(s: string): (n: nat)
    ensures n >= |s|
    ensures (forall i :: 0 <= i < |s| ==> s[i] as int < 0x80) ==> n == |s|
  {
    if |s| == 0 then 0 else Utf8Width(s[0]) + Utf8Len(s[1..])
  }

  // ---------------------------------------------------------------------
  // Trimming

  function TrimLeft(s: string): (r: string)
    ensures |r| <= |s| && r == s[|s| - |r|..]
    ensures AllSpace(s[..|s| - |r|])
    ensures |r| > 0 ==> !IsSpace(r[0])
    decreases |s|
  {
    if |s| > 0 && IsSpace(s[0]) then TrimLeft(s[1..]) else s
  }

  function TrimRight(s: string): (r: string)
    ensures |r| <= |s| && r == s[..|r|]
    ensures AllSpace(s[|r|..])
    ensures |r| > 0 ==> !IsSpace(r[|r| - 1])
    decreases |s|
  {
    if |s| > 0 && IsSpace(s[|s| - 1]) then TrimRight(s[..|s| - 1]) else s
  }

  /** `strings.TrimSpace`: `s` without its leading and trailing white space. */
  function TrimSpace(s: string): (r: string)
    ensures Trimmed(r)
    ensures exists a, b :: 0 <= a <= b <= |s| && r == s[a..b] && AllSpace(s[..a]) && AllSpace(s[b..])
  {
    var l := TrimLeft(s);
    var r := TrimRight(l);
    assert |r| > 0 ==> r[0] == l[0];
    TrimBothEnds(s, l, r);
    r
  }

  /** Trimming the left, then the right, keeps a middle slice between two runs of white space. */
  lemma TrimBothEnds(s: string, l: string, r: string)
    requires |l| <= |s| && l == s[|s| - |l|..] && AllSpace(s[..|s| - |l|])
    requires |r| <= |l| && r == l[..|r|] && AllSpace(l[|r|..])
    ensures var a := |s| - |l|;
      a + |r| <= |s| && r == s[a..a + |r|] && AllSpace(s[..a]) && AllSpace(s[a + |r|..])
  {
    SliceOfSuffix(s, |s| - |l|, |r|);
  }

  lemma SliceOfSuffix<T>(s: seq<T>, a: nat, k: nat)
    requires a + k <= |s|
    ensures s[a..][..k] == s[a..a + k]
    ensures s[a..][k..] == s[a + k..]
  {
  }

  /** Trimming never adds a character. */
  lemma TrimSpaceAvoids(s: string, c: char)
    requires c !in s
    ensures c !in TrimSpace(s)
  {
    var a, b :| 0 <= a <= b <= |s| && TrimSpace(s) == s[a..b] && AllSpace(s[..a]) && AllSpace(s[b..]);
    assert forall i :: 0 <= i < b - a ==> s[a..b][i] == s[a + i];
  }

  lemma {:induction false} TrimLeftPadded(p: string, u: string)
    requires AllSpace(p)
    requires |u| == 0 || !IsSpace(u[0])
    ensures TrimLeft(p + u) == u
    decreases |p|
  {
    if |p| > 0 {
      assert (p + u)[1..] == p[1..] + u;
      TrimLeftPadded(p[1..], u);
    } else {
      assert p + u == u;
    }
  }

  lemma {:induction false} TrimRightPadded(u: string, q: string)
    requires AllSpace(q)
    requires |u| == 0 || !IsSpace(u[|u| - 1])
    ensures TrimRight(u + q) == u
    decreases |q|
  {
    if |q| > 0 {
      assert (u + q)[..|u + q| - 1] == u + q[..|q| - 1];
      TrimRightPadded(u, q[..|q| - 1]);
    } else {
      assert u + q == u;
    }
  }

  /** Trimming undoes padding with white space on either side. */
  lemma TrimSpacePadded(p: string, t: string, q: string)
    requires AllSpace(p) && AllSpace(q) && Trimmed(t)
    ensures TrimSpace(p + t + q) == t
  {
    if |t| == 0 {
      assert p + t + q == p + q;
      assert AllSpace(p + q);
      TrimLeftPadded(p + q, "");
      assert p + q + "" == p + q;
    } else {
      assert p + t + q == p + (t + q);
      TrimLeftPadded(p, t + q);
      TrimRightPadded(t, q);
    }
  }

  /** Trimming undoes trailing white space. */
  lemma TrimSpaceRight(t: string, q: string)
    requires AllSpace(q) && Trimmed(t)
    ensures TrimSpace(t + q) == t
  {
    TrimSpacePadded("", t, q);
    assert "" + t + q == t + q;
  }

  /** A string with no white space at its ends is left alone. */
  lemma TrimSpaceOfTrimmed(t: string)
    requires Trimmed(t)
    ensures TrimSpace(t) == t
  {
    TrimSpacePadded("", t, "");
    assert "" + t + "" == t;
  }

  // ---------------------------------------------------------------------
  // Searching

  predicate OccursAt(s: string, pat: string, i: int) {
    0 <= i && i + |pat| <= |s| && s[i..i + |pat|] == pat
  }

  /** `strings.Contains`. */
  predicate Contains(s: string, pat: string) {
    exists i | 0 <= i <= |s| :: OccursAt(s, pat, i)
  }

  function IndexFrom(s: string, pat: string, from: nat): (r: Option<nat>)
    requires from <= |s|
    ensures r.Some? ==> from <= r.value && OccursAt(s, pat, r.value)
    ensures r.Some? ==> forall j :: from <= j < r.value ==> !OccursAt(s, pat, j)
    ensures r.None? ==> forall j :: from <= j ==> !OccursAt(s, pat, j)
    decreases |s| - from
  {
    if from + |pat| > |s| then None
    else if s[from..from + |pat|] == pat then Some(from)
    else IndexFrom(s, pat, from + 1)
  }

  /** `strings.Index`: the first occurrence of `pat` in `s`, if any. */
  function Index(s: string, pat: string): (r: Option<nat>)
    ensures r.Some? ==> OccursAt(s, pat, r.value)
    ensures r.Some? ==> forall j :: 0 <= j < r.value ==> !OccursAt(s, pat, j)
    ensures r.None? <==> !Contains(s, pat)
  {
    IndexFrom(s, pat, 0)
  }

  /** A separator none of whose proper prefixes is also a suffix: two of its occurrences never overlap. */
  predicate BorderFree(sep: string) {
    forall k :: 0 < k < |sep| ==> sep[..k] != sep[|sep| - k..]
  }

  /** With a border-free separator, the first occurrence in `a + sep + b` is the one written after `a`. */
  lemma {:induction false} IndexAfter(a: string, sep: string, b: string)
    requires |sep| > 0 && BorderFree(sep)
    requires !Contains(a, sep)
    ensures Index(a + sep + b, sep) == Some(|a|)
  {
    var s := a + sep + b;
    assert OccursAt(s, sep, |a|) by {
      assert s[|a|..|a| + |sep|] == sep;
    }
    forall p | 0 <= p < |a| ensures !OccursAt(s, sep, p) {
      if p + |sep| <= |a| {
        assert s[p..p + |sep|] == a[p..p + |sep|];
        assert !OccursAt(a, sep, p);
      } else {
        var k := |a| - p;
        assert sep[..|sep| - k] != sep[k..];
        assert s[|a|..p + |sep|] == sep[..|sep| - k];
        assert s[p..p + |sep|][k..] == s[|a|..p + |sep|];
      }
    }
  }

  /** `c` occurs as a one-character pattern exactly when it is an element. */
  lemma ContainsChar(s: string, c: char)
    ensures Contains(s, [c]) <==> c in s
  {
    if c in s {
      var i :| 0 <= i < |s| && s[i] == c;
      assert s[i..i + 1] == [c];
      assert OccursAt(s, [c], i);
    }
    if Contains(s, [c]) {
      var i :| 0 <= i <= |s| && OccursAt(s, [c], i);
      assert i + 1 <= |s| && s[i..i + 1] == [c];
      assert s[i] == s[i..i + 1][0];
    }
  }

  // ---------------------------------------------------------------------
  // Splitting and joining

  /** `strings.Join`. */
  function Join(parts: seq<string>, sep: string): string
    decreases |parts|
  {
    if |parts| == 0 then ""
    else if |parts| == 1 then parts[0]
    else parts[0] + sep + Join(parts[1..], sep)
  }

  /**
   * `strings.Split` with a non-empty separator: the pieces between the
   * non-overlapping occurrences of `sep`, found left to right.
   */
  function Split(s: string, sep: string): (parts: seq<string>)
    requires |sep| > 0
    ensures |parts| >= 1
    ensures |parts| >= 2 <==> Contains(s, sep)
    ensures Join(parts, sep) == s
    ensures forall j :: 0 <= j < |parts| ==> !Contains(parts[j], sep)
    decreases |s|
  {
    match Index(s, sep)
    case None => [s]
    case Some(i) =>
      var rest := Split(s[i + |sep|..], sep);
      var parts := [s[..i]] + rest;
      assert parts[1..] == rest;
      assert s == s[..i] + sep + s[i + |sep|..] by {
        assert s[i..i + |sep|] == sep;
      }
      assert !Contains(s[..i], sep) by {
        forall j | OccursAt(s[..i], sep, j) ensures false {
          assert s[j..j + |sep|] == s[..i][j..j + |sep|];
          assert OccursAt(s, sep, j);
        }
      }
      parts
  }

  /** The first piece of a split is the text before the first separator. */
  lemma SplitHead(s: string, sep: string)
    requires |sep| > 0
    ensures Index(s, sep).None? ==> Split(s, sep) == [s]
    ensures Index(s, sep).Some? ==> Split(s, sep)[0] == s[..Index(s, sep).value]
  {
  }

  /** Splitting `a + sep + b` where `a` holds no separator. */
  lemma SplitAfter(a: string, sep: string, b: string)
    requires |sep| > 0 && BorderFree(sep)
    requires !Contains(a, sep)
    ensures Split(a + sep + b, sep) == [a] + Split(b, sep)
  {
    var s := a + sep + b;
    IndexAfter(a, sep, b);
    assert s[..|a|] == a;
    assert s[|a| + |sep|..] == b;
  }

  /** Splitting a string that holds no separator. */
  lemma SplitNone(s: string, sep: string)
    requires |sep| > 0
    requires !Contains(s, sep)
    ensures Split(s, sep) == [s]
  {
  }

  /** A character that is in neither `a` nor `b` is not in their join. */
  lemma {:induction false} JoinAvoids(parts: seq<string>, sep: string, c: char)
    requires c !in sep
    requires forall j :: 0 <= j < |parts| ==> c !in parts[j]
    ensures c !in Join(parts, sep)
    decreases |parts|
  {
    if |parts| > 1 {
      JoinAvoids(parts[1..], sep, c);
    }
  }

  // ---------------------------------------------------------------------
  // Replacing

  /** `strings.ReplaceAll` with a non-empty pattern. */
  function ReplaceAll(s: string, pat: string, rep: string): string
    requires |pat| > 0
  {
    Join(Split(s, pat), rep)
  }

  /** `strings.Replace(s, pat, rep, 1)`: replaces the first occurrence only, wherever it is. */
  function ReplaceFirst(s: string, pat: string, rep: string): string {
    match Index(s, pat)
    case None => s
    case Some(i) => s[..i] + rep + s[i + |pat|..]
  }

  /** Without an occurrence the text is unchanged; otherwise the earliest occurrence is replaced and the rest kept. */
  lemma ReplaceFirstSpec(s: string, pat: string, rep: string)
    ensures !Contains(s, pat) ==> ReplaceFirst(s, pat, rep) == s
    ensures Contains(s, pat) ==> exists i ::
      && OccursAt(s, pat, i)
      && (forall j :: 0 <= j < i ==> !OccursAt(s, pat, j))
      && ReplaceFirst(s, pat, rep) == s[..i] + rep + s[i + |pat|..]
  {
    match Index(s, pat)
    case None =>
    case Some(i) =>
      assert OccursAt(s, pat, i) && ReplaceFirst(s, pat, rep) == s[..i] + rep + s[i + |pat|..];
  }

  /** After `ReplaceAll(s, [c], "")` no `c` is left. */
  lemma RemoveAllChar(s: string, c: char)
    ensures c !in ReplaceAll(s, [c], "")
  {
    var parts := Split(s, [c]);
    forall j | 0 <= j < |parts| ensures c !in parts[j] {
      ContainsChar(parts[j], c);
    }
    JoinAvoids(parts, "", c);
  }

  /**
   * `s` with the occurrences of `pat` dropped, scanning left to right and
   * resuming after each one dropped: a character-by-character reference for
   * `ReplaceAll(s, pat, "")`.
   */
  function Remove(s: string, pat: string): string
    requires |pat| > 0
    decreases |s|
  {
    if |s| < |pat| then s
    else if s[..|pat|] == pat then Remove(s[|pat|..], pat)
    else [s[0]] + Remove(s[1..], pat)
  }

  /** Without an occurrence, nothing is dropped. */
  lemma {:induction false} RemoveAbsent(s: string, pat: string)
    requires |pat| > 0 && !Contains(s, pat)
    ensures Remove(s, pat) == s
    decreases |s|
  {
    if |s| >= |pat| {
      assert !OccursAt(s, pat, 0);
      forall j | 0 <= j <= |s[1..]| ensures !OccursAt(s[1..], pat, j) {
        OccursShift(s, pat, j);
      }
      RemoveAbsent(s[1..], pat);
      assert [s[0]] + s[1..] == s;
    }
  }

  /** Everything before the first occurrence is kept; the occurrence itself is dropped. */
  lemma {:induction false} RemoveUpTo(s: string, pat: string, i: nat)
    requires |pat| > 0 && OccursAt(s, pat, i)
    requires forall j :: 0 <= j < i ==> !OccursAt(s, pat, j)
    ensures Remove(s, pat) == s[..i] + Remove(s[i + |pat|..], pat)
    decreases i
  {
    if i == 0 {
      RemoveAtFront(s, pat);
    } else {
      NoEarlierShift(s, pat, i);
      var t, k := s[1..], i - 1;
      RemoveUpTo(t, pat, k);
      RemoveUpToStep(s, pat, i, t, k);
    }
  }

  /**
   * When the last character of `pat` appears neither in `x` nor earlier in
   * `pat`, the first occurrence in `x + pat + y` is the one after `x`.
   */
  lemma RemoveAfter(x: string, pat: string, y: string)
    requires |pat| > 0 && pat[|pat| - 1] !in x + pat[..|pat| - 1]
    ensures Remove(x + pat + y, pat) == x + Remove(y, pat)
  {
    var s := x + pat + y;
    var head := x + pat[..|pat| - 1];
    assert s == head + [pat[|pat| - 1]] + y;
    forall j | 0 <= j < |x| ensures !OccursAt(s, pat, j) {
      if j + |pat| <= |s| {
        assert s[j..j + |pat|][|pat| - 1] == head[j + |pat| - 1];
      }
    }
    assert s[|x|..|x| + |pat|] == pat;
    RemoveUpTo(s, pat, |x|);
    assert s[..|x|] == x && s[|x| + |pat|..] == y;
  }

  /** An occurrence at the front is dropped. */
  lemma RemoveAtFront(s: string, pat: string)
    requires |pat| > 0 && OccursAt(s, pat, 0)
    ensures Remove(s, pat) == s[..0] + Remove(s[|pat|..], pat)
  {
    assert s[..|pat|] == pat;
    assert s[..0] + Remove(s[|pat|..], pat) == Remove(s[|pat|..], pat);
  }

  /** The step of `RemoveUpTo`: the first character is kept in front of what the rest gives. */
  lemma RemoveUpToStep(s: string, pat: string, i: nat, t: string, k: nat)
    requires |pat| > 0 && 0 < i && i + |pat| <= |s| && !OccursAt(s, pat, 0)
    requires t == s[1..] && k == i - 1
    requires Remove(t, pat) == t[..k] + Remove(t[k + |pat|..], pat)
    ensures Remove(s, pat) == s[..i] + Remove(s[i + |pat|..], pat)
  {
    RemoveKeepsHead(s, pat);
    assert t[k + |pat|..] == s[i + |pat|..];
    ConsPrefix(s, i, Remove(s, pat), Remove(t, pat), Remove(s[i + |pat|..], pat));
  }

  lemma ConsPrefix(s: string, i: nat, whole: string, tail: string, r: string)
    requires 0 < i <= |s|
    requires whole == [s[0]] + tail && tail == s[1..][..i - 1] + r
    ensures whole == s[..i] + r
  {
    assert [s[0]] + s[1..][..i - 1] == s[..i];
  }

  /** Where no occurrence starts at the front, the first character is kept. */
  lemma RemoveKeepsHead(s: string, pat: string)
    requires |pat| > 0 && |s| >= |pat| && !OccursAt(s, pat, 0)
    ensures Remove(s, pat) == [s[0]] + Remove(s[1..], pat)
  {
  }

  /** Dropping the first character moves every occurrence one place to the left. */
  lemma NoEarlierShift(s: string, pat: string, i: nat)
    requires i > 0 && OccursAt(s, pat, i)
    requires forall j :: 0 <= j < i ==> !OccursAt(s, pat, j)
    ensures |s| >= |pat| && !OccursAt(s, pat, 0)
    ensures OccursAt(s[1..], pat, i - 1)
    ensures forall j :: 0 <= j < i - 1 ==> !OccursAt(s[1..], pat, j)
  {
    OccursShift(s, pat, i - 1);
    forall j | 0 <= j < i - 1 ensures !OccursAt(s[1..], pat, j) {
      OccursShift(s, pat, j);
    }
  }


  lemma OccursShift(s: string, pat: string, j: nat)
    requires |s| > 0
    ensures OccursAt(s[1..], pat, j) <==> OccursAt(s, pat, j + 1)
  {
    if j + |pat| <= |s| - 1 {
      assert s[1..][j..j + |pat|] == s[j + 1..j + 1 + |pat|];
    }
  }

  lemma JoinNothingCons(a: string, rest: seq<string>)
    requires |rest| >= 1
    ensures Join([a] + rest, "") == a + Join(rest, "")
  {
    var parts := [a] + rest;
    assert |parts| >= 2 && parts[0] == a && parts[1..] == rest;
    assert Join(parts, "") == a + "" + Join(rest, "");
    assert a + "" == a;
  }

  /** `ReplaceAll(s, pat, "")` is the left-to-right scan that drops each non-overlapping occurrence. */
  lemma {:induction false} ReplaceAllRemoves(s: string, pat: string)
    requires |pat| > 0
    ensures ReplaceAll(s, pat, "") == Remove(s, pat)
    decreases |s|
  {
    match Index(s, pat)
    case None =>
      ReplaceAllAbsent(s, pat, "");
      RemoveAbsent(s, pat);
    case Some(i) =>
      var rest := s[i + |pat|..];
      assert Split(s, pat) == [s[..i]] + Split(rest, pat);
      JoinNothingCons(s[..i], Split(rest, pat));
      ReplaceAllRemoves(rest, pat);
      RemoveUpTo(s, pat, i);
  }

  /** Replacing a pattern that does not occur changes nothing. */
  lemma ReplaceAllAbsent(s: string, pat: string, rep: string)
    requires |pat| > 0
    requires !Contains(s, pat)
    ensures ReplaceAll(s, pat, rep) == s
  {
    SplitNone(s, pat);
  }
}

=== FILE: ingest.dfy ===
/**
 * The write side (cron/cron.go `Start` and `batchInsert`, repeated as
 * `cron` in api/index.go): every node that is not marked down becomes a
 * nine-column record, and each record one queued INSERT statement.
 */
module Ingest {
  import opened Outcome
  import opened Rows
  import opened Select

  /** The `node` record, one per active row. */
  datatype NodeRecord = NodeRecord(
    id: string, isp: string, country: string, city: string,
    disk: int, ttfb: int, traffic: int, bandwidth: int, weight: int)

  /** All fields of one active row, extracted in the order the loop body runs them. */
  function ParseRecord(row: Row): Result<NodeRecord> {
    var c := row.cells;
    Assemble(ParseId(c), ParseIsp(c), ParseLocation(c), ParseDisk(c), ParseTtfb(c), ParseUpload(c), ParseWeight(c))
  }

  /** The record built from the extractors' results; the first panic, in loop-body order, wins. */
  function Assemble(ident: Ident, isp: Result<string>, location: Result<Location>, disk: Result<int>,
                    ttfb: Result<int>, upload: Result<Upload>, weight: int): Result<NodeRecord>
  {
    var i :- isp;
    var l :- location;
    var d :- disk;
    var t :- ttfb;
    var u :- upload;
    Ok(NodeRecord(ident.id, i, l.country, l.city, d, t, u.traffic, u.bandwidth, weight))
  }

  /** A record is built only when every extractor succeeds, and then holds their results. */
  lemma AssembleFields(ident: Ident, isp: Result<string>, location: Result<Location>, disk: Result<int>,
                       ttfb: Result<int>, upload: Result<Upload>, weight: int, record: NodeRecord)
    requires Assemble(ident, isp, location, disk, ttfb, upload, weight) == Ok(record)
    ensures record.id == ident.id && isp == Ok(record.isp)
    ensures location == Ok(Location(record.city, record.country))
    ensures disk == Ok(record.disk) && ttfb == Ok(record.ttfb)
    ensures upload == Ok(Upload(record.traffic, record.bandwidth)) && weight == record.weight
  {
  }

  /** The row loop of `Start`: the records of the rows not marked down, in document order. */
  function CollectActive(rows: seq<Row>): Result<seq<NodeRecord>> {
    Collect(rows, IsUp, ParseRecord)
  }

  /** The rows `Start` turns into records, in order. */
  function Active(rows: seq<Row>): seq<nat> {
    Indices(rows, IsUp)
  }

  /** Every active row yields its fields without a panic. */
  predicate ActiveParse(rows: seq<Row>) {
    forall i :: 0 <= i < |rows| && IsUp(rows[i]) ==> ParseRecord(rows[i]).Ok?
  }

  /** The record holds exactly what the extractors read from `row`. */
  predicate RecordOfRow(record: NodeRecord, row: Row) {
    && record.id == ParseId(row.cells).id
    && ParseIsp(row.cells) == Ok(record.isp)
    && ParseLocation(row.cells) == Ok(Location(record.city, record.country))
    && ParseDisk(row.cells) == Ok(record.disk)
    && ParseTtfb(row.cells) == Ok(record.ttfb)
    && ParseUpload(row.cells) == Ok(Upload(record.traffic, record.bandwidth))
    && ParseWeight(row.cells) == record.weight
  }

  // ---------------------------------------------------------------------
  // What the loop collects

  /** Collection fails exactly when some active row panics. */
  lemma CollectActiveOk(rows: seq<Row>)
    ensures CollectActive(rows).Ok? <==> ActiveParse(rows)
  {
    CollectOk(rows, IsUp, ParseRecord);
  }

  /** One record per active row, in document order. */
  lemma CollectActiveRecords(rows: seq<Row>)
    requires CollectActive(rows).Ok?
    ensures |CollectActive(rows).value| == |Active(rows)|
    ensures forall j :: 0 <= j < |Active(rows)| ==>
      ParseRecord(rows[Active(rows)[j]]) == Ok(CollectActive(rows).value[j])
  {
    CollectValues(rows, IsUp, ParseRecord);
  }

  /** Each field of a parsed record is what its extractor reads from the row. */
  lemma RecordFields(row: Row, record: NodeRecord)
    requires ParseRecord(row) == Ok(record)
    ensures RecordOfRow(record, row)
  {
    var c := row.cells;
    AssembleFields(ParseId(c), ParseIsp(c), ParseLocation(c), ParseDisk(c), ParseTtfb(c), ParseUpload(c),
                   ParseWeight(c), record);
  }

  /** A row marked down, wherever it sits, is never parsed past its id. */
  lemma DownRowIgnored(a: seq<Row>, x: Row, b: seq<Row>)
    requires !IsUp(x)
    ensures CollectActive(a + [x] + b) == CollectActive(a + b)
  {
    CollectSkips(a, x, b, IsUp, ParseRecord);
  }

  // ---------------------------------------------------------------------
  // The queued statements

  const InsertSql: string :=
    "INSERT INTO nodes(id,isp,country,city,disk,ttfb,traffic,bandwidth,weight) VALUES ($1,$2,$3,$4,$5,$6,$7,$8,$9)"

  /** The column list of `InsertSql`, transcribed in order: `$k` binds `Columns[k - 1]`. */
  const Columns: seq<string> := ["id", "isp", "country", "city", "disk", "ttfb", "traffic", "bandwidth", "weight"]

  /** A bound argument: a text or an integer. */
  datatype Param = Text(text: string) | Number(number: int)

  datatype Statement = Statement(sql: string, args: seq<Param>)

  /** The value a record binds to the named column. */
  function Column(record: NodeRecord, name: string): Option<Param> {
    match name
    case "id" => Some(Text(record.id))
    case "isp" => Some(Text(record.isp))
    case "country" => Some(Text(record.country))
    case "city" => Some(Text(record.city))
    case "disk" => Some(Number(record.disk))
    case "ttfb" => Some(Number(record.ttfb))
    case "traffic" => Some(Number(record.traffic))
    case "bandwidth" => Some(Number(record.bandwidth))
    case "weight" => Some(Number(record.weight))
    case _ => None
  }

  /** The arguments `batch.Queue` binds for one record. */
  function Args(record: NodeRecord): seq<Param> {
    [Text(record.id), Text(record.isp), Text(record.country), Text(record.city),
     Number(record.disk), Number(record.ttfb), Number(record.traffic), Number(record.bandwidth),
     Number(record.weight)]
  }

  /** The arguments follow the statement's column list. */
  lemma ArgsInColumnOrder(record: NodeRecord)
    ensures |Args(record)| == |Columns|
    ensures forall i :: 0 <= i < |Columns| ==> Column(record, Columns[i]) == Some(Args(record)[i])
  {
  }

  /** Reads a record back from the bound arguments. */
  function RecordOf(args: seq<Param>): Option<NodeRecord> {
    if |args| == 9
       && args[0].Text? && args[1].Text? && args[2].Text? && args[3].Text?
       && args[4].Number? && args[5].Number? && args[6].Number? && args[7].Number? && args[8].Number?
    then Some(NodeRecord(args[0].text, args[1].text, args[2].text, args[3].text,
                         args[4].number, args[5].number, args[6].number, args[7].number, args[8].number))
    else None
  }

  /** The bound arguments determine the record. */
  lemma ArgsRoundTrip(record: NodeRecord)
    ensures RecordOf(Args(record)) == Some(record)
  {
  }

  /** `batchInsert` up to sending: one statement per record, in record order. */
  method QueueInserts(records: seq<NodeRecord>) returns (batch: seq<Statement>)
    ensures |batch| == |records|
    ensures forall j :: 0 <= j < |records| ==> batch[j].sql == InsertSql && |batch[j].args| == |Columns|
    ensures forall j :: 0 <= j < |records| ==> RecordOf(batch[j].args) == Some(records[j])
    ensures forall j, i :: 0 <= j < |records| && 0 <= i < |Columns| ==>
      Column(records[j], Columns[i]) == Some(batch[j].args[i])
  {
    batch := [];
    for k := 0 to |records|
      invariant |batch| == k
      invariant forall j :: 0 <= j < k ==> batch[j] == Statement(InsertSql, Args(records[j]))
    {
      ArgsRoundTrip(records[k]);
      ArgsInColumnOrder(records[k]);
      batch := batch + [Statement(InsertSql, Args(records[k]))];
    }
  }

  /**
   * `Start` on an already fetched table body, with the database left out:
   * the statements it would send, or the panic that stops it first.
   */
  method Start(rows: seq<Row>) returns (r: Result<seq<Statement>>)
    ensures r.Ok? <==> ActiveParse(rows)
    ensures r.Ok? ==> |r.value| == |Active(rows)| == |Positions(rows, IsUp)|
    ensures r.Ok? ==> forall j :: 0 <= j < |Active(rows)| ==>
      && r.value[j].sql == InsertSql
      && RecordOf(r.value[j].args).Some?
      && RecordOfRow(RecordOf(r.value[j].args).value, rows[Active(rows)[j]])
  {
    CollectActiveOk(rows);
    match CollectActive(rows)
    case Panic(f) =>
      r := Panic(f);
    case Ok(records) =>
      CollectActiveRecords(rows);
      IndicesCount(rows, IsUp);
      forall j | 0 <= j < |Active(rows)|
        ensures RecordOfRow(records[j], rows[Active(rows)[j]])
      {
        RecordFields(rows[Active(rows)[j]], records[j]);
      }
      var batch := QueueInserts(records);
      r := Ok(batch);
  }
}

=== FILE: outcome.dfy ===
/** Failure-compatible outcomes shared by the whole model. */
module Outcome {

  /** An optional value: Go's `(value, ok)` and `(value, err)` pairs. */
  datatype Option<+T> = None | Some(value: T)

  /** The Go runtime panics the scraper can raise on malformed markup. */
  datatype Fault =
    | IndexOutOfRange   // `strings.Split(...)[1]` on a string without the separator
    | SliceOutOfRange   // `value[l-2 : l]` or `value[l-4 : l]` on a too-short string

  /** A value, or the panic that aborted the computation. Usable with `:-`. */
  datatype Result<+T> = Ok(value: T) | Panic(fault: Fault) {

    predicate IsFailure() {
      Panic?
    }

    function PropagateFailure<U>(): Result<U>
      requires Panic?
    {
      Panic(fault)
    }

    function Extract(): T
      requires Ok?
    {
      value
    }
  }
}

=== FILE: report.dfy ===
/**
 * The read side of the API (api/index.go `getData`, `sortIsps`,
 * `sortRegions`): how many nodes are up, every readable row as a node, and
 * the ISPs and countries with how many rows name each, most frequent first.
 */
module Report {
  import opened Outcome
  import opened Rows
  import opened Select

  datatype Node = Node(id: string, html: string)

  /** An `Isp` or `Region` entry of the response. */
  datatype NameCount = NameCount(name: string, count: int)

  datatype Data = Data(count: int, nodes: seq<Node>, regions: seq<NameCount>, isps: seq<NameCount>)

  /** The state the row loop of `getData` builds up. */
  datatype Tally = Tally(count: int, nodes: seq<Node>, isps: map<string, int>, regions: map<string, int>)

  /** Rendering the row's markup succeeds; rows where it fails are skipped. */
  predicate Readable(row: Row) {
    row.html.Some?
  }

  /** A readable row that is not marked down: what `count` counts. */
  predicate Counted(row: Row) {
    Readable(row) && IsUp(row)
  }

  /** The node a readable row contributes: its id and its markup wrapped back in `<tr>`. */
  function NodeOf(row: Row): Node
    requires Readable(row)
  {
    Node(ParseId(row.cells).id, "<tr>" + row.html.value + "</tr>")
  }

  /** How often `k` was counted in `m` (0 when it is not a key). */
  function Lookup(m: map<string, int>, k: string): int {
    if k in m then m[k] else 0
  }

  /** Every key has been counted at least once. */
  predicate Positive(m: map<string, int>) {
    forall k :: k in m ==> m[k] > 0
  }

  /** One more occurrence of `k`: the map update in the row loop. */
  function Bump(m: map<string, int>, k: string): (r: map<string, int>)
    ensures r.Keys == m.Keys + {k}
    ensures Positive(m) ==> Positive(r)
    ensures forall j :: Lookup(r, j) == Lookup(m, j) + (if j == k then 1 else 0)
  {
    if k in m then m[k := m[k] + 1] else m[k := 1]
  }

  /** The rows `getData` visits, in order. */
  function Visited(rows: seq<Row>): seq<nat> {
    Indices(rows, Readable)
  }

  /** A readable row whose ISP is `k`. */
  function NamesIsp(k: string): Row -> bool {
    (row: Row) => Readable(row) && ParseIsp(row.cells) == Ok(k)
  }

  /** A readable row whose country is `k`. */
  function NamesCountry(k: string): Row -> bool {
    (row: Row) => Readable(row) && ParseLocation(row.cells).Ok? && ParseLocation(row.cells).value.country == k
  }

  /** Every visited row has an ISP and a location that can be cut out without a panic. */
  predicate AllParse(rows: seq<Row>) {
    forall i :: 0 <= i < |rows| && Readable(rows[i]) ==>
      ParseIsp(rows[i].cells).Ok? && ParseLocation(rows[i].cells).Ok?
  }

  /** One pass of the row loop of `getData`. */
  function Visit(t: Tally, row: Row): Result<Tally> {
    if !Readable(row) then Ok(t)
    else
      var isp :- ParseIsp(row.cells);
      var location :- ParseLocation(row.cells);
      Ok(Tally(
        if IsUp(row) then t.count + 1 else t.count,
        t.nodes + [NodeOf(row)],
        Bump(t.isps, isp),
        Bump(t.regions, location.country)))
  }

  /** The row loop of `getData`, over the rows of the table body in document order. */
  function Scan(rows: seq<Row>): Result<Tally>
    decreases |rows|
  {
    if |rows| == 0 then Ok(Tally(0, [], map[], map[]))
    else
      var t :- Scan(rows[..|rows| - 1]);
      Visit(t, rows[|rows| - 1])
  }

  // ---------------------------------------------------------------------
  // What the loop computes, row by row

  /** A finished loop over a non-empty table is the last pass over the finished loop before it. */
  lemma ScanStep(rows: seq<Row>)
    requires |rows| > 0 && Scan(rows).Ok?
    ensures Scan(rows[..|rows| - 1]).Ok?
    ensures Scan(rows) == Visit(Scan(rows[..|rows| - 1]).value, rows[|rows| - 1])
  {
  }

  /** One pass adds the row's node when the row is readable, and keeps the nodes before it. */
  lemma VisitNodes(t: Tally, row: Row)
    requires Visit(t, row).Ok?
    ensures Visit(t, row).value.nodes == t.nodes + (if Readable(row) then [NodeOf(row)] else [])
    ensures Visit(t, row).value.count == t.count + (if Counted(row) then 1 else 0)
  {
  }

  /** The loop finishes exactly when no visited row panics in `ParseISP` or `ParseLocation`. */
  lemma {:induction false} ScanOk(rows: seq<Row>)
    ensures Scan(rows).Ok? <==> AllParse(rows)
    decreases |rows|
  {
    if |rows| > 0 {
      var n := |rows| - 1;
      ScanOk(rows[..n]);
      assert forall i :: 0 <= i < n ==> rows[..n][i] == rows[i];
    }
  }

  /** One node per visited row, in document order, with the row's id and markup. */
  lemma {:induction false} ScanNodes(rows: seq<Row>)
    requires Scan(rows).Ok?
    ensures |Scan(rows).value.nodes| == |Visited(rows)|
    ensures forall j :: 0 <= j < |Visited(rows)| ==>
      Scan(rows).value.nodes[j] == NodeOf(rows[Visited(rows)[j]])
    decreases |rows|
  {
    if |rows| > 0 {
      var n := |rows| - 1;
      ScanStep(rows);
      ScanNodes(rows[..n]);
      var idx := Visited(rows[..n]);
      var prior := Scan(rows[..n]).value.nodes;
      forall j | 0 <= j < |idx|
        ensures idx[j] < n && Readable(rows[idx[j]]) && prior[j] == NodeOf(rows[idx[j]])
      {
        assert rows[..n][idx[j]] == rows[idx[j]];
      }
      VisitNodes(Scan(rows[..n]).value, rows[n]);
      assert Visited(rows) == idx + (if Readable(rows[n]) then [n] else []);
      NodesStep(rows, idx, prior);
    }
  }

  /** Appending the last row's node to the nodes of the rows before it follows the visited positions. */
  lemma NodesStep(rows: seq<Row>, idx: seq<nat>, prior: seq<Node>)
    requires |rows| > 0 && |prior| == |idx|
    requires forall j :: 0 <= j < |idx| ==>
      idx[j] < |rows| - 1 && Readable(rows[idx[j]]) && prior[j] == NodeOf(rows[idx[j]])
    ensures var n := |rows| - 1;
      var visited := idx + (if Readable(rows[n]) then [n] else []);
      var nodes := prior + (if Readable(rows[n]) then [NodeOf(rows[n])] else []);
      |nodes| == |visited| && forall j :: 0 <= j < |visited| ==> nodes[j] == NodeOf(rows[visited[j]])
  {
    var n := |rows| - 1;
    if Readable(rows[n]) {
      var visited := idx + [n];
      var nodes := prior + [NodeOf(rows[n])];
      forall j | 0 <= j < |visited| ensures nodes[j] == NodeOf(rows[visited[j]]) {
        if j < |idx| {
          assert nodes[j] == prior[j] && visited[j] == idx[j];
        }
      }
    } else {
      assert idx + [] == idx && prior + [] == prior;
    }
  }

  /** `count` is the number of visited rows that are not down. */
  lemma {:induction false} ScanCount(rows: seq<Row>)
    requires Scan(rows).Ok?
    ensures Scan(rows).value.count == |Indices(rows, Counted)|
    decreases |rows|
  {
    if |rows| > 0 {
      var n := |rows| - 1;
      ScanStep(rows);
      ScanCount(rows[..n]);
      VisitNodes(Scan(rows[..n]).value, rows[n]);
      assert Indices(rows, Counted) == Indices(rows[..n], Counted) + (if Counted(rows[n]) then [n] else []);
    }
  }

  /** Each ISP is counted once per visited row that names it. */
  lemma {:induction false} ScanIsps(rows: seq<Row>)
    requires Scan(rows).Ok?
    ensures forall k :: Lookup(Scan(rows).value.isps, k) == |Indices(rows, NamesIsp(k))|
    ensures Positive(Scan(rows).value.isps)
    decreases |rows|
  {
    if |rows| > 0 {
      ScanIsps(rows[..|rows| - 1]);
    }
  }

  /** Each country is counted once per visited row that names it. */
  lemma {:induction false} ScanRegions(rows: seq<Row>)
    requires Scan(rows).Ok?
    ensures forall k :: Lookup(Scan(rows).value.regions, k) == |Indices(rows, NamesCountry(k))|
    ensures Positive(Scan(rows).value.regions)
    decreases |rows|
  {
    if |rows| > 0 {
      ScanRegions(rows[..|rows| - 1]);
    }
  }

  /** An unreadable row, wherever it sits, changes nothing. */
  lemma {:induction false} ScanSkipsUnreadable(a: seq<Row>, x: Row, b: seq<Row>)
    requires !Readable(x)
    ensures Scan(a + [x] + b) == Scan(a + b)
    decreases |b|
  {
    if |b| == 0 {
      assert (a + [x] + b)[..|a|] == a;
      assert a + b == a;
    } else {
      var n := |b| - 1;
      assert (a + [x] + b)[..|a| + 1 + n] == a + [x] + b[..n];
      assert (a + [x] + b)[|a| + 1 + n] == b[n];
      assert (a + b)[..|a| + n] == a + b[..n];
      assert (a + b)[|a| + n] == b[n];
      ScanSkipsUnreadable(a, x, b[..n]);
    }
  }

  // ---------------------------------------------------------------------
  // Totals

  /** The sum of a map's values. */
  ghost function MapSum(m: map<string, int>): int
    decreases |m|
  {
    if m.Keys == {} then 0
    else
      var k :| k in m;
      m[k] + MapSum(m - {k})
  }

  /** The sum does not depend on which key is taken out first. */
  lemma {:induction false} MapSumRemove(m: map<string, int>, k: string)
    requires k in m
    ensures MapSum(m) == m[k] + MapSum(m - {k})
    decreases |m|
  {
    var j :| j in m && MapSum(m) == m[j] + MapSum(m - {j});
    if j != k {
      var mj, mk := m - {j}, m - {k};
      assert mj[k] == m[k] && mk[j] == m[j];
      MapSumRemove(mj, k);
      MapSumRemove(mk, j);
      assert mj - {k} == mk - {j};
    }
  }

  lemma MapSumBump(m: map<string, int>, k: string)
    ensures MapSum(Bump(m, k)) == MapSum(m) + 1
  {
    var r := Bump(m, k);
    MapSumRemove(r, k);
    assert r - {k} == m - {k};
    if k in m {
      MapSumRemove(m, k);
    } else {
      assert m - {k} == m;
    }
  }

  /** The ISP counts, and the country counts, each add up to the number of nodes. */
  lemma {:induction false} ScanSums(rows: seq<Row>)
    requires Scan(rows).Ok?
    ensures MapSum(Scan(rows).value.isps) == |Scan(rows).value.nodes|
    ensures MapSum(Scan(rows).value.regions) == |Scan(rows).value.nodes|
    decreases |rows|
  {
    if |rows| > 0 {
      var n := |rows| - 1;
      ScanSums(rows[..n]);
      if Readable(rows[n]) {
        var t := Scan(rows[..n]).value;
        MapSumBump(t.isps, ParseIsp(rows[n].cells).value);
        MapSumBump(t.regions, ParseLocation(rows[n].cells).value.country);
      }
    }
  }

  // ---------------------------------------------------------------------
  // Sorting the counts

  predicate SortedDesc(s: seq<NameCount>) {
    forall i, j :: 0 <= i < j < |s| ==> s[i].count >= s[j].count
  }

  predicate DistinctNames(s: seq<NameCount>) {
    forall i, j :: 0 <= i < j < |s| ==> s[i].name != s[j].name
  }

  /** `s` holds exactly the (key, count) entries of `m`. */
  ghost predicate Lists(s: seq<NameCount>, m: map<string, int>) {
    forall e :: e in s <==> e.name in m && m[e.name] == e.count
  }

  function SeqSum(s: seq<NameCount>): int {
    if |s| == 0 then 0 else s[0].count + SeqSum(s[1..])
  }

  lemma {:induction false} SeqSumConcat(a: seq<NameCount>, b: seq<NameCount>)
    ensures SeqSum(a + b) == SeqSum(a) + SeqSum(b)
    decreases |a|
  {
    if |a| > 0 {
      assert (a + b)[0] == a[0];
      assert (a + b)[1..] == a[1..] + b;
      SeqSumConcat(a[1..], b);
    } else {
      assert a + b == b;
    }
  }

  /** Where an entry with count `c` goes: after every entry counting at least `c`. */
  function InsertPos(s: seq<NameCount>, c: int): (p: nat)
    ensures p <= |s|
    ensures forall j :: 0 <= j < p ==> s[j].count >= c
    ensures SortedDesc(s) ==> forall j :: p <= j < |s| ==> s[j].count < c
  {
    if |s| == 0 || s[0].count < c then 0 else 1 + InsertPos(s[1..], c)
  }

  /** `s` with `x` placed at position `p`. */
  function Place(s: seq<NameCount>, p: nat, x: NameCount): (r: seq<NameCount>)
    requires p <= |s|
    ensures |r| == |s| + 1
    ensures forall i :: 0 <= i < |r| ==> r[i] == (if i < p then s[i] else if i == p then x else s[i - 1])
  {
    s[..p] + [x] + s[p..]
  }

  lemma PlaceElements(s: seq<NameCount>, p: nat, x: NameCount)
    requires p <= |s|
    ensures forall e :: e in Place(s, p, x) <==> e == x || e in s
  {
    var r := Place(s, p, x);
    forall e | e in s ensures e in r {
      var i :| 0 <= i < |s| && s[i] == e;
      if i < p {
        assert r[i] == e;
      } else {
        assert r[i + 1] == e;
      }
    }
    assert r[p] == x;
  }

  lemma PlaceSum(s: seq<NameCount>, p: nat, x: NameCount)
    requires p <= |s|
    ensures SeqSum(Place(s, p, x)) == SeqSum(s) + x.count
  {
    var a, b := s[..p], s[p..];
    assert Place(s, p, x) == a + [x] + b;
    SeqSumAround(a, x, b);
    SeqSumConcat(a, b);
    assert a + b == s;
  }

  lemma SeqSumAround(a: seq<NameCount>, x: NameCount, b: seq<NameCount>)
    ensures SeqSum(a + [x] + b) == SeqSum(a) + x.count + SeqSum(b)
  {
    SeqSumConcat(a + [x], b);
    SeqSumConcat(a, [x]);
    assert [x][1..] == [];
  }

  lemma PlaceSorted(s: seq<NameCount>, p: nat, x: NameCount)
    requires p <= |s|
    requires forall j :: 0 <= j < p ==> s[j].count >= x.count
    ensures SortedDesc(s) && (forall j :: p <= j < |s| ==> s[j].count < x.count) ==> SortedDesc(Place(s, p, x))
  {
  }

  lemma PlaceDistinct(s: seq<NameCount>, p: nat, x: NameCount)
    requires p <= |s|
    ensures DistinctNames(s) && (forall j :: 0 <= j < |s| ==> s[j].name != x.name) ==> DistinctNames(Place(s, p, x))
  {
  }

  /** `s` with `x` inserted where `InsertPos` says. */
  function Insert(s: seq<NameCount>, x: NameCount): (r: seq<NameCount>)
    ensures |r| == |s| + 1
    ensures forall e :: e in r <==> e == x || e in s
    ensures SeqSum(r) == SeqSum(s) + x.count
    ensures SortedDesc(s) ==> SortedDesc(r)
    ensures DistinctNames(s) && (forall j :: 0 <= j < |s| ==> s[j].name != x.name) ==> DistinctNames(r)
  {
    var p := InsertPos(s, x.count);
    PlaceElements(s, p, x);
    PlaceSum(s, p, x);
    PlaceSorted(s, p, x);
    PlaceDistinct(s, p, x);
    Place(s, p, x)
  }

  /**
   * `sortIsps` / `sortRegions`: the entries of the map, in the order the
   * map happens to be walked, sorted by descending count. The order among
   * equal counts is not determined.
   */
  method SortCounts(m: map<string, int>) returns (s: seq<NameCount>)
    ensures Lists(s, m)
    ensures DistinctNames(s)
    ensures |s| == |m|
    ensures SortedDesc(s)
    ensures SeqSum(s) == MapSum(m)
  {
    s := [];
    var rest := m;
    while rest != map[]
      invariant forall k :: k in rest ==> k in m && rest[k] == m[k]
      invariant forall e :: e in s <==> e.name in m && e.name !in rest && m[e.name] == e.count
      invariant DistinctNames(s) && SortedDesc(s)
      invariant |s| + |rest| == |m|
      invariant SeqSum(s) + MapSum(rest) == MapSum(m)
      decreases |rest|
    {
      var k :| k in rest;
      MapSumRemove(rest, k);
      s := Insert(s, NameCount(k, rest[k]));
      rest := rest - {k};
    }
  }

  // ---------------------------------------------------------------------
  // The response

  /** A listing of a positive count map holds one entry per counted name, with its count. */
  lemma ListedCounts(s: seq<NameCount>, m: map<string, int>, count: string -> int)
    requires Lists(s, m) && Positive(m)
    requires forall k :: Lookup(m, k) == count(k)
    ensures forall e :: e in s ==> e.count == count(e.name) > 0
    ensures forall k :: count(k) > 0 ==> NameCount(k, count(k)) in s
  {
    forall k | count(k) > 0 ensures NameCount(k, count(k)) in s {
      assert Lookup(m, k) > 0;
    }
  }

  /** The number of visited rows naming ISP `k`. */
  function IspCount(rows: seq<Row>): string -> int {
    (k: string) => |Indices(rows, NamesIsp(k))|
  }

  /** The number of visited rows naming country `k`. */
  function CountryCount(rows: seq<Row>): string -> int {
    (k: string) => |Indices(rows, NamesCountry(k))|
  }

  /**
   * `getData` on an already fetched table body: fails as a whole when a
   * visited row panics, and otherwise reports the counts the rows imply.
   */
  method GetData(rows: seq<Row>) returns (r: Result<Data>)
    ensures r.Ok? <==> AllParse(rows)
    ensures r.Ok? ==> r.value.count == |Positions(rows, Counted)|
    ensures r.Ok? ==> |r.value.nodes| == |Visited(rows)| == |Positions(rows, Readable)|
    ensures r.Ok? ==> forall j :: 0 <= j < |Visited(rows)| ==> r.value.nodes[j] == NodeOf(rows[Visited(rows)[j]])
    ensures r.Ok? ==> forall e :: e in r.value.isps ==> e.count == IspCount(rows)(e.name) > 0
    ensures r.Ok? ==> forall k :: IspCount(rows)(k) > 0 ==> NameCount(k, IspCount(rows)(k)) in r.value.isps
    ensures r.Ok? ==> forall e :: e in r.value.regions ==> e.count == CountryCount(rows)(e.name) > 0
    ensures r.Ok? ==> forall k :: CountryCount(rows)(k) > 0 ==> NameCount(k, CountryCount(rows)(k)) in r.value.regions
    ensures r.Ok? ==> DistinctNames(r.value.isps) && SortedDesc(r.value.isps)
    ensures r.Ok? ==> DistinctNames(r.value.regions) && SortedDesc(r.value.regions)
    ensures r.Ok? ==> SeqSum(r.value.isps) == |r.value.nodes| && SeqSum(r.value.regions) == |r.value.nodes|
  {
    ScanOk(rows);
    match Scan(rows)
    case Panic(f) =>
      r := Panic(f);
    case Ok(t) =>
      ScanCount(rows);
      IndicesCount(rows, Counted);
      ScanNodes(rows);
      IndicesCount(rows, Readable);
      ScanSums(rows);
      var isps := SortCounts(t.isps);
      ScanIsps(rows);
      ListedCounts(isps, t.isps, IspCount(rows));
      var regions := SortCounts(t.regions);
      ScanRegions(rows);
      ListedCounts(regions, t.regions, CountryCount(rows));
      r := Ok(Data(t.count, t.nodes, regions, isps));
  }
}

=== FILE: rows.dfy ===
/**
 * One row of the node table and the field extractors that cut its cells
 * apart (api/index.go: `clear`, `ParseId`, `ParseISP`, `ParseLocation`,
 * `ParseDisk`, `ParseTTFB`, `ParseUpload`, `ParseWeight`).
 *
 * A row is what goquery shows of a `<tr>`: its cells, in order. Selecting a
 * cell past the end gives an empty selection, whose `Html()` is "" without
 * error and whose `Text()` is "".
 */
module Rows {
  import opened Outcome
  import opened GoStrings
  import opened GoNumbers
  import opened Units

  /** An element child of a cell: its text and its class list. */
  datatype Element = Element(text: string, classes: set<string>)

  /** A `<td>`: its inner markup (None when rendering it fails), its text, and its element children. */
  datatype Cell = Cell(html: Option<string>, text: string, children: seq<Element>)

  /** A `<tr>`: its inner markup (None when rendering it fails) and its cells. */
  datatype Row = Row(html: Option<string>, cells: seq<Cell>)

  /** `tds.Eq(i).Html()`. */
  function CellHtml(cells: seq<Cell>, i: nat): Option<string> {
    if i < |cells| then cells[i].html else Some("")
  }

  /** `tds.Eq(i).Text()`. */
  function CellText(cells: seq<Cell>, i: nat): string {
    if i < |cells| then cells[i].text else ""
  }

  /** `tds.Last().Text()`. */
  function LastText(cells: seq<Cell>): string {
    if |cells| == 0 then "" else cells[|cells| - 1].text
  }

  /** The marker the markup fields are cut on: the start of a `<br>` / `<br/>` tag. */
  const LineBreak: string := "<br"

  /** The text before the first occurrence of `sep`, or all of `s`. */
  function Before(s: string, sep: string): string
    requires |sep| > 0
  {
    Split(s, sep)[0]
  }

  /** `clear`: drops "/>" and ">" left over from cutting markup, then trims. */
  function Clear(s: string): (r: string)
    ensures '>' !in r
    ensures Trimmed(r)
  {
    var t := ReplaceAll(ReplaceAll(s, "/>", ""), ">", "");
    RemoveAllChar(ReplaceAll(s, "/>", ""), '>');
    TrimSpaceAvoids(t, '>');
    TrimSpace(t)
  }

  /** `clear` trims what is left once every "/>" and then every '>' is dropped. */
  lemma ClearSpec(s: string)
    ensures Clear(s) == TrimSpace(Remove(Remove(s, "/>"), ">"))
  {
    ReplaceAllRemoves(s, "/>");
    ReplaceAllRemoves(Remove(s, "/>"), ">");
  }

  /** A lone '>' not preceded by '/' is dropped and the text around it is joined. */
  lemma ClearDropsGt(x: string, y: string)
    requires '>' !in x && '>' !in y && (|x| == 0 || x[|x| - 1] != '/')
    ensures Clear(x + ">" + y) == TrimSpace(x + y)
  {
    var s := x + ">" + y;
    NoSlashGt(x, y);
    RemoveAbsent(s, "/>");
    RemoveAfter(x, ">", y);
    ContainsChar(y, '>');
    RemoveAbsent(y, ">");
    ClearSpec(s);
  }

  /** A "/>" is dropped whole, and the text around it is joined. */
  lemma ClearDropsSelfClosing(x: string, y: string)
    requires '>' !in x && '>' !in y
    ensures Clear(x + "/>" + y) == TrimSpace(x + y)
  {
    var s := x + "/>" + y;
    RemoveAfter(x, "/>", y);
    AvoidsPattern(y, "/>", 1);
    RemoveAbsent(y, "/>");
    ContainsChar(x + y, '>');
    RemoveAbsent(x + y, ">");
    ClearSpec(s);
  }

  lemma NoSlashGt(x: string, y: string)
    requires '>' !in x && '>' !in y && (|x| == 0 || x[|x| - 1] != '/')
    ensures !Contains(x + ">" + y, "/>")
  {
    var s := x + ">" + y;
    forall i | 0 <= i <= |s| ensures !OccursAt(s, "/>", i) {
      if i + 2 <= |s| {
        if i + 1 < |x| {
          assert s[i..i + 2][1] == x[i + 1];
        } else if i + 1 > |x| {
          assert s[i..i + 2][1] == y[i - |x|];
        } else {
          assert s[i..i + 2][0] == x[|x| - 1];
        }
      }
    }
  }

  /** A string lacking one character of `pat` cannot contain `pat`. */
  lemma AvoidsPattern(x: string, pat: string, k: nat)
    requires k < |pat| && pat[k] !in x
    ensures !Contains(x, pat)
  {
    forall i | 0 <= i <= |x| ensures !OccursAt(x, pat, i) {
      if i + |pat| <= |x| {
        assert x[i..i + |pat|][k] == x[i + k];
      }
    }
  }

  /** Text already free of '>' and trimmed is a fixed point of `Clear`. */
  lemma ClearFixes(t: string)
    requires '>' !in t && Trimmed(t)
    ensures Clear(t) == t
  {
    AvoidsPattern(t, "/>", 1);
    ReplaceAllAbsent(t, "/>", "");
    ContainsChar(t, '>');
    ReplaceAllAbsent(t, ">", "");
    TrimSpaceOfTrimmed(t);
  }

  /** `clear` is idempotent. */
  lemma ClearIdempotent(s: string)
    ensures Clear(Clear(s)) == Clear(s)
  {
    ClearFixes(Clear(s));
  }

  // ---------------------------------------------------------------------
  // Identifier and status

  datatype Ident = Ident(id: string, down: bool)

  /**
   * `ParseId`: the trimmed text of the first cell's first element child, and
   * whether its third element child has class "down".
   */
  function ParseId(cells: seq<Cell>): (r: Ident)
    ensures Trimmed(r.id)
    ensures r.id != "" ==> |cells| > 0 && |cells[0].children| > 0
    ensures r.down <==> |cells| > 0 && |cells[0].children| > 2 && "down" in cells[0].children[2].classes
  {
    var children := if |cells| == 0 then [] else cells[0].children;
    Ident(
      if |children| == 0 then "" else TrimSpace(children[0].text),
      |children| > 2 && "down" in children[2].classes)
  }

  /** The row is reported as up. */
  predicate IsUp(row: Row) {
    !ParseId(row.cells).down
  }

  // ---------------------------------------------------------------------
  // ISP and location

  /**
   * `ParseISP`: the cleaned text between the first and second line break of
   * the third cell. Without a line break, `Split(...)[1]` panics.
   */
  function ParseIsp(cells: seq<Cell>): (r: Result<string>)
    ensures CellHtml(cells, 2).None? ==> r == Ok("")
    ensures CellHtml(cells, 2).Some? ==> (r.Panic? <==> !Contains(CellHtml(cells, 2).value, LineBreak))
    ensures r.Panic? ==> r.fault == IndexOutOfRange
    ensures r.Ok? ==> '>' !in r.value && Trimmed(r.value)
  {
    match CellHtml(cells, 2)
    case None => Ok("")
    case Some(h) =>
      var parts := Split(h, LineBreak);
      if |parts| < 2 then Panic(IndexOutOfRange) else Ok(Clear(parts[1]))
  }

  datatype Location = Location(city: string, country: string)

  /**
   * `ParseLocation`: the fourth cell's markup before the first line break is
   * the city, unmodified; the cleaned piece after it is the country.
   */
  function ParseLocation(cells: seq<Cell>): (r: Result<Location>)
    ensures CellHtml(cells, 3).None? ==> r == Ok(Location("", ""))
    ensures CellHtml(cells, 3).Some? ==> (r.Panic? <==> !Contains(CellHtml(cells, 3).value, LineBreak))
    ensures r.Panic? ==> r.fault == IndexOutOfRange
    ensures r.Ok? && CellHtml(cells, 3).Some? ==>
      var h := CellHtml(cells, 3).value;
      var city := r.value.city;
      && |city| <= |h| && h[..|city|] == city
      && OccursAt(h, LineBreak, |city|)
      && !Contains(city, LineBreak)
    ensures r.Ok? ==> '>' !in r.value.country && Trimmed(r.value.country)
  {
    match CellHtml(cells, 3)
    case None => Ok(Location("", ""))
    case Some(h) =>
      var parts := Split(h, LineBreak);
      SplitHead(h, LineBreak);
      if |parts| < 2 then Panic(IndexOutOfRange) else Ok(Location(parts[0], Clear(parts[1])))
  }

  // ---------------------------------------------------------------------
  // Disk, latency, upload and weight

  /** The text `ParseDisk` reads a size from: before the first line break, then before any '('. */
  function DiskText(h: string): string {
    TrimSpace(Before(Before(h, LineBreak), "("))
  }

  /** `ParseDisk`: the fifth cell's size in whole GiB. */
  function ParseDisk(cells: seq<Cell>): (r: Result<int>)
    ensures CellHtml(cells, 4).None? ==> r == Ok(0)
    ensures CellHtml(cells, 4).Some? ==> (r.Panic? <==> HumanReadableToInt(DiskText(CellHtml(cells, 4).value)).Panic?)
    ensures r.Ok? && CellHtml(cells, 4).Some? ==>
      var bytes := HumanReadableToInt(DiskText(CellHtml(cells, 4).value)).value;
      && (bytes >= 0 ==> r.value >= 0 && r.value * GiB <= bytes < (r.value + 1) * GiB)
      && (bytes < 0 ==> r.value <= 0 && (r.value - 1) * GiB < bytes <= r.value * GiB)
  {
    match CellHtml(cells, 4)
    case None => Ok(0)
    case Some(h) =>
      var bytes :- HumanReadableToInt(DiskText(h));
      Ok(ToGiB(bytes))
  }

  /** The eighth cell's text before the first "24h". */
  function LatencyText(cells: seq<Cell>): string {
    Before(CellText(cells, 7), "24h")
  }

  /**
   * `ParseTTFB`: in the text before "24h", the piece between the first and
   * second ':' read as an integer; 0 if it is not one. No ':' at all panics.
   */
  function ParseTtfb(cells: seq<Cell>): (r: Result<int>)
    ensures r.Panic? <==> ':' !in LatencyText(cells)
    ensures r.Panic? ==> r.fault == IndexOutOfRange
    ensures r.Ok? ==> MinInt64 <= r.value <= MaxInt64
  {
    var parts := Split(LatencyText(cells), ":");
    ContainsChar(LatencyText(cells), ':');
    if |parts| < 2 then Panic(IndexOutOfRange)
    else
      match Atoi(TrimSpace(parts[1]))
      case Some(i) => Ok(i)
      case None => Ok(0)   // logged
  }

  datatype Upload = Upload(traffic: int, bandwidth: int)

  /** The text `ParseUpload` reads a bandwidth from: after the first '@', before any '('. */
  function RateText(afterAt: string): string {
    TrimSpace(Before(TrimSpace(afterAt), "("))
  }

  /**
   * `ParseUpload`: the eleventh cell's text is "<traffic> @ <bandwidth> (...)".
   * The traffic conversion runs first, so its slice panic wins over the
   * missing-'@' index panic.
   */
  function ParseUpload(cells: seq<Cell>): (r: Result<Upload>)
    ensures
      var parts := Split(CellText(cells, 10), "@");
      var traffic := HumanReadableToInt(TrimSpace(parts[0]));
      && (traffic.Panic? ==> r == Panic(SliceOutOfRange))
      && (traffic.Ok? && !Contains(CellText(cells, 10), "@") ==> r == Panic(IndexOutOfRange))
      && (traffic.Ok? && Contains(CellText(cells, 10), "@") ==>
            var rate := BandwidthToMbps(RateText(parts[1]));
            && (rate.Panic? ==> r == Panic(SliceOutOfRange))
            && (rate.Ok? ==> r == Ok(Upload(ToGiB(traffic.value), rate.value))))
  {
    var parts := Split(CellText(cells, 10), "@");
    match HumanReadableToInt(TrimSpace(parts[0]))
    case Panic(f) => Panic(f)
    case Ok(bytes) =>
      if |parts| < 2 then Panic(IndexOutOfRange)
      else
        match BandwidthToMbps(RateText(parts[1]))
        case Panic(f) => Panic(f)
        case Ok(bandwidth) => Ok(Upload(ToGiB(bytes), bandwidth))
  }

  /** `ParseWeight`: the last cell's trimmed text as an integer, -1 if it is not one. */
  function ParseWeight(cells: seq<Cell>): (w: int)
    ensures MinInt64 <= w <= MaxInt64
    ensures Atoi(TrimSpace(LastText(cells))).None? ==> w == -1
  {
    match Atoi(TrimSpace(LastText(cells)))
    case Some(i) => i
    case None => -1
  }

  // ---------------------------------------------------------------------
  // Reading back what the page writes

  /** How goquery renders a `<br>` tag. */
  const RenderedBreak: string := "<br/>"

  /** `s` begins with `p`. */
  predicate StartsWith(s: string, p: string) {
    |p| <= |s| && s[..|p|] == p
  }

  /** Splitting `a + sep + m + t` yields `a`, then `m`, when `t` is empty or starts the next piece. */
  lemma SplitTwo(a: string, sep: string, m: string, t: string)
    requires |sep| > 0 && BorderFree(sep)
    requires !Contains(a, sep) && !Contains(m, sep)
    requires t == [] || StartsWith(t, sep)
    ensures |Split(a + sep + m + t, sep)| >= 2
    ensures Split(a + sep + m + t, sep)[0] == a
    ensures Split(a + sep + m + t, sep)[1] == m
  {
    assert a + sep + m + t == a + sep + (m + t);
    SplitAfter(a, sep, m + t);
    SplitHeadPiece(m, sep, t);
  }

  /** The first piece of `m + t` is `m` when `t` is empty or starts with the separator. */
  lemma SplitHeadPiece(m: string, sep: string, t: string)
    requires |sep| > 0 && BorderFree(sep)
    requires !Contains(m, sep)
    requires t == [] || StartsWith(t, sep)
    ensures Split(m + t, sep)[0] == m
  {
    if t == [] {
      assert m + t == m;
      SplitNone(m, sep);
    } else {
      var rest := t[|sep|..];
      assert m + t == m + sep + rest;
      SplitAfter(m, sep, rest);
    }
  }

  /** Two occurrences of the line-break marker never overlap. */
  lemma BreakBorderFree()
    ensures BorderFree(LineBreak)
  {
    assert LineBreak[..1][0] != LineBreak[2..][0];
    assert LineBreak[..2][0] != LineBreak[1..][0];
  }

  /** A rendered line break is the marker followed by "/>". */
  lemma RenderedBreakParts(a: string, x: string, t: string)
    ensures a + RenderedBreak + x + t == a + LineBreak + ("/>" + x) + t
  {
    assert RenderedBreak == LineBreak + "/>";
  }

  /** `clear` strips the "/>" a rendered `<br/>` leaves in front of the text. */
  lemma ClearAfterBreak(x: string)
    requires '>' !in x && Trimmed(x)
    ensures Clear("/>" + x) == x
  {
    AvoidsPattern(x, "/>", 1);
    assert "/>" + x == "" + "/>" + x;
    SplitAfter("", "/>", x);
    SplitNone(x, "/>");
    assert Split("/>" + x, "/>") == ["", x];
    assert Join(["", x], "") == "" + "" + Join([x], "");
    assert ReplaceAll("/>" + x, "/>", "") == x;
    ClearFixes(x);
  }

  /** The ISP written after the first rendered line break of the third cell is read back. */
  lemma IspRoundTrip(cells: seq<Cell>, a: string, isp: string, t: string)
    requires |cells| > 2 && cells[2].html == Some(a + RenderedBreak + isp + t)
    requires !Contains(a, LineBreak)
    requires '<' !in isp && '>' !in isp && Trimmed(isp)
    requires t == [] || StartsWith(t, LineBreak)
    ensures ParseIsp(cells) == Ok(isp)
  {
    AvoidsPattern("/>" + isp, LineBreak, 0);
    RenderedBreakParts(a, isp, t);
    BreakBorderFree();
    SplitTwo(a, LineBreak, "/>" + isp, t);
    ClearAfterBreak(isp);
  }

  /** City and country written around the fourth cell's first rendered line break are read back. */
  lemma LocationRoundTrip(cells: seq<Cell>, city: string, country: string, t: string)
    requires |cells| > 3 && cells[3].html == Some(city + RenderedBreak + country + t)
    requires !Contains(city, LineBreak)
    requires '<' !in country && '>' !in country && Trimmed(country)
    requires t == [] || StartsWith(t, LineBreak)
    ensures ParseLocation(cells) == Ok(Location(city, country))
  {
    AvoidsPattern("/>" + country, LineBreak, 0);
    RenderedBreakParts(city, country, t);
    BreakBorderFree();
    SplitTwo(city, LineBreak, "/>" + country, t);
    ClearAfterBreak(country);
  }

  /** Cutting `w + x` before the first `c`, where `x` starts with `c` and `w` lacks it, leaves `w`. */
  lemma BeforeMark(w: string, c: char, x: string)
    requires c !in w && |x| > 0 && x[0] == c
    ensures Before(w + x, [c]) == w
  {
    AvoidsPattern(w, [c], 0);
    assert w + x == w + [c] + x[1..];
    SplitAfter(w, [c], x[1..]);
  }

  /** A piece with no line break is not cut by the line-break split. */
  lemma BeforeNoBreak(w: string, t: string)
    requires '<' !in w
    requires t == [] || StartsWith(t, LineBreak)
    ensures Before(w + t, LineBreak) == w
  {
    AvoidsPattern(w, LineBreak, 0);
    BreakBorderFree();
    SplitHeadPiece(w, LineBreak, t);
  }

  /** When `t` opens with '(', the line-break cut of `w + t` keeps `w` and at least that '('. */
  lemma BreakCutAfterNote(w: string, t: string) returns (u: string)
    requires '<' !in w && |t| > 0 && t[0] == '('
    ensures Before(w + t, LineBreak) == w + u && |u| > 0 && u[0] == '('
  {
    var s := w + t;
    SplitHead(s, LineBreak);
    match Index(s, LineBreak)
    case None =>
      u := t;
    case Some(k) =>
      assert s[k..k + |LineBreak|][0] == s[k];
      assert k > |w|;
      u := t[..k - |w|];
      assert s[..k] == w + u;
  }

  /** A size, padding, then nothing, a "(...)" note or a line break: `ParseDisk` reads the size. */
  lemma DiskTextOf(v: string, sp: string, t: string)
    requires '<' !in v && '(' !in v && Trimmed(v) && AllSpace(sp)
    requires t == [] || t[0] == '(' || StartsWith(t, LineBreak)
    ensures DiskText(v + sp + t) == v
  {
    var w := v + sp;
    assert '<' !in w && '(' !in w by {
      assert forall i :: 0 <= i < |sp| ==> IsSpace(sp[i]);
    }
    if t != [] && t[0] == '(' {
      var u := BreakCutAfterNote(w, t);
      BeforeMark(w, '(', u);
    } else {
      BeforeNoBreak(w, t);
      AvoidsPattern(w, "(", 0);
      SplitNone(w, "(");
    }
    TrimSpaceRight(v, sp);
  }

  /** A rendered number with a unit label: trimmed, and free of the markers the extractors cut on. */
  lemma RenderedQuantity(n: nat, gap: string, unit: string)
    requires AllSpace(gap) && |unit| > 0 && !IsSpace(unit[|unit| - 1])
    requires '<' !in unit && '(' !in unit && '@' !in unit && ':' !in unit
    ensures var s := NatText(n) + gap + unit;
      Trimmed(s) && '<' !in s && '(' !in s && '@' !in s && ':' !in s
  {
    var s := NatText(n) + gap + unit;
    assert IsDigit(NatText(n)[0]);
    assert s[0] == NatText(n)[0];
    forall i | 0 <= i < |s| ensures s[i] !in "<(@:" {
      if i < |NatText(n)| {
        assert IsDigit(NatText(n)[i]);
      } else if i < |NatText(n)| + |gap| {
        assert IsSpace(gap[i - |NatText(n)|]);
      }
    }
  }

  lemma RenderedSize(n: nat, gap: string, u: SizeUnit, binary: bool, upper: bool)
    requires AllSpace(gap)
    ensures var s := SizeString(n, gap, u, binary, upper);
      Trimmed(s) && '<' !in s && '(' !in s && '@' !in s
  {
    RenderedQuantity(n, gap, SizeLabel(u, binary, upper));
  }

  lemma RenderedBandwidth(n: nat, gap: string, gigabit: bool, upper: bool)
    requires AllSpace(gap)
    ensures var s := BandwidthString(n, gap, gigabit, upper);
      Trimmed(s) && '<' !in s && '(' !in s && '@' !in s
  {
    RenderedQuantity(n, gap, BandwidthLabel(gigabit, upper));
  }

  /** A disk size written in the fifth cell, before any note or line break, is read back in GiB. */
  lemma DiskCellRoundTrip(cells: seq<Cell>, n: nat, gap: string, u: SizeUnit, binary: bool, upper: bool,
                          sp: string, t: string)
    requires AllSpace(gap) && AllSpace(sp)
    requires t == [] || t[0] == '(' || StartsWith(t, LineBreak)
    requires |cells| > 4 && cells[4].html == Some(SizeString(n, gap, u, binary, upper) + sp + t)
    ensures ParseDisk(cells) == Ok(ToGiB(n * UnitBytes(u)))
    ensures u == Giga ==> ParseDisk(cells) == Ok(n)
  {
    RenderedSize(n, gap, u, binary, upper);
    DiskTextOf(SizeString(n, gap, u, binary, upper), sp, t);
    SizeRoundTrip(n, gap, u, binary, upper);
    if u == Giga {
      WholeGiB(n);
    }
  }

  /** `Itoa` output is trimmed and made of digits and at most a leading '-'. */
  lemma IntTextShape(i: int)
    ensures var s := IntText(i);
      Trimmed(s) && forall k :: 0 <= k < |s| ==> IsDigit(s[k]) || s[k] == '-'
  {
    var d := NatText(if i < 0 then -i else i);
    assert IsDigit(d[|d| - 1]);
  }

  /** White space holds no visible character. */
  lemma SpaceAvoids(sp: string, c: char)
    requires AllSpace(sp) && !IsSpace(c)
    ensures c !in sp
  {
    assert forall k :: 0 <= k < |sp| ==> IsSpace(sp[k]);
  }

  lemma SpaceConcat(a: string, b: string)
    requires AllSpace(a) && AllSpace(b)
    ensures AllSpace(a + b)
  {
    assert forall k :: 0 <= k < |b| ==> (a + b)[|a| + k] == b[k];
  }

  lemma Regroup(a: string, b: string, c: string, d: string, e: string, f: string)
    ensures a + b + c + d + e + f == a + b + (c + d + e) + f
  {
  }

  lemma RegroupAround(a: string, b: string, c: string, d: string, e: string, f: string, g: string, h: string)
    ensures a + b + c + d + e + f + g + h == (a + b) + c + (d + e + f + g + h)
  {
  }

  /** Splitting on a one-character separator that occurs once, between `a` and `m`. */
  lemma SplitPair(a: string, c: char, m: string)
    requires c !in a && c !in m
    ensures Split(a + [c] + m, [c]) == [a, m]
  {
    AvoidsPattern(a, [c], 0);
    AvoidsPattern(m, [c], 0);
    SplitAfter(a, [c], m);
    SplitNone(m, [c]);
  }

  lemma DayBorderFree()
    ensures BorderFree("24h")
  {
    assert "24h"[..1][0] != "24h"[2..][0];
    assert "24h"[..2][0] != "24h"[1..][0];
  }

  /** The text before "24h", when the marker follows `p` or is absent, is `p`. */
  lemma BeforeDay(p: string, t: string)
    requires !Contains(p, "24h")
    requires t == [] || StartsWith(t, "24h")
    ensures Before(p + t, "24h") == p
  {
    DayBorderFree();
    if t == [] {
      assert p + t == p;
      SplitNone(p, "24h");
    } else {
      assert p + t == p + "24h" + t[3..];
      SplitAfter(p, "24h", t[3..]);
    }
  }

  /** A "24h" marker in `a + q` must end in an 'h' of `a` when `q` has none, so it lies inside `a`. */
  lemma NoDayAfter(a: string, q: string)
    requires !Contains(a, "24h") && 'h' !in q
    ensures !Contains(a + q, "24h")
  {
    var s := a + q;
    forall i | 0 <= i <= |s| ensures !OccursAt(s, "24h", i) {
      if i + 3 <= |s| {
        if i + 2 >= |a| {
          assert s[i..i + 3][2] == q[i + 2 - |a|] != 'h';
        } else {
          assert s[i..i + 3] == a[i..i + 3];
          assert !OccursAt(a, "24h", i);
        }
      }
    }
  }

  /** A padded 64-bit integer holds neither ':' nor 'h', and `Atoi` reads it back after trimming. */
  lemma PaddedInt(sp1: string, i: int, sp2: string)
    requires AllSpace(sp1) && AllSpace(sp2) && MinInt64 <= i <= MaxInt64
    ensures ':' !in sp1 + IntText(i) + sp2 && 'h' !in sp1 + IntText(i) + sp2
    ensures Atoi(TrimSpace(sp1 + IntText(i) + sp2)) == Some(i)
  {
    PaddedIntAvoids(sp1, i, sp2, ':');
    PaddedIntAvoids(sp1, i, sp2, 'h');
    IntTextShape(i);
    TrimSpacePadded(sp1, IntText(i), sp2);
    AtoiOfIntText(i);
  }

  /** A padded integer holds no character that is neither white space, a digit nor '-'. */
  lemma PaddedIntAvoids(sp1: string, i: int, sp2: string, c: char)
    requires AllSpace(sp1) && AllSpace(sp2)
    requires !IsSpace(c) && !IsDigit(c) && c != '-'
    ensures c !in sp1 + IntText(i) + sp2
  {
    IntTextShape(i);
    SpaceAvoids(sp1, c);
    SpaceAvoids(sp2, c);
    assert c !in IntText(i);
  }

  /** A piece after the first ':' that is not an integer gives 0, not a panic. */
  lemma TtfbNotAnInteger(cells: seq<Cell>)
    requires Contains(LatencyText(cells), ":")
    requires Atoi(TrimSpace(Split(LatencyText(cells), ":")[1])).None?
    ensures ParseTtfb(cells) == Ok(0)
  {
    ContainsChar(LatencyText(cells), ':');
  }

  /**
   * The integer is read from between the first and the second ':' only:
   * whatever follows the second ':', up to the "24h" marker, is ignored.
   */
  lemma TtfbSecondColon(cells: seq<Cell>, a: string, m: string, rest: string, t: string)
    requires ':' !in a && ':' !in m
    requires !Contains(a + ":" + m + ":" + rest, "24h")
    requires t == [] || StartsWith(t, "24h")
    requires |cells| > 7 && cells[7].text == a + ":" + m + ":" + rest + t
    ensures ParseTtfb(cells) == Ok(match Atoi(TrimSpace(m)) case Some(i) => i case None => 0)
  {
    var p := a + ":" + m + ":" + rest;
    assert cells[7].text == p + t;
    BeforeDay(p, t);
    ColonPieces(a, m, rest);
  }

  /** Splitting on ':' gives the text before the first ':' and then the text up to the second. */
  lemma ColonPieces(a: string, m: string, rest: string)
    requires ':' !in a && ':' !in m
    ensures |Split(a + ":" + m + ":" + rest, ":")| >= 2
    ensures Split(a + ":" + m + ":" + rest, ":")[1] == m
  {
    var tail := ":" + rest;
    ColonBorderFree();
    AvoidsPattern(a, ":", 0);
    AvoidsPattern(m, ":", 0);
    assert a + ":" + m + ":" + rest == a + ":" + (m + tail);
    SplitAfter(a, ":", m + tail);
    SplitHeadPiece(m, ":", tail);
  }

  lemma ColonBorderFree()
    ensures BorderFree(":")
  {
  }

  /** "TTFB: 42 ms 24h" reads " 42 ms " after the ':', which is not an integer: 0. */
  lemma SampleTtfbNotANumber(cells: seq<Cell>)
    requires |cells| > 7 && cells[7].text == "TTFB: 42 ms 24h"
    ensures ParseTtfb(cells) == Ok(0)
  {
    var a, m, t := SampleNotANumberParts(cells[7].text);
    TtfbPieceNotANumber(cells, a, m, t);
  }

  lemma TtfbPieceNotANumber(cells: seq<Cell>, a: string, m: string, t: string)
    requires ':' !in a && ':' !in m && 'h' !in m && !Contains(a, "24h")
    requires t == [] || StartsWith(t, "24h")
    requires |cells| > 7 && cells[7].text == a + ":" + m + t
    requires Atoi(TrimSpace(m)).None?
    ensures ParseTtfb(cells) == Ok(0)
  {
    TtfbFirstPiece(cells, a, m, t);
  }

  lemma SampleNotANumberParts(text: string) returns (a: string, m: string, t: string)
    requires text == "TTFB: 42 ms 24h"
    ensures text == a + ":" + m + t
    ensures ':' !in a && ':' !in m && 'h' !in m && !Contains(a, "24h")
    ensures StartsWith(t, "24h") && Atoi(TrimSpace(m)).None?
  {
    a, m, t := "TTFB", " 42 ms ", "24h";
    SampleNotANumberText(text, m);
    PieceNotANumber(m);
  }

  lemma SampleNotANumberText(text: string, m: string)
    requires text == "TTFB: 42 ms 24h" && m == " 42 ms "
    ensures text == "TTFB" + ":" + m + "24h"
    ensures !Contains("TTFB", "24h") && StartsWith("24h", "24h")
  {
    AvoidsPattern("TTFB", "24h", 2);
  }

  lemma PieceNotANumber(m: string)
    requires m == " 42 ms "
    ensures ':' !in m && 'h' !in m && Atoi(TrimSpace(m)).None?
  {
    PieceChars(m);
    PaddedNotANumber(" ", "42 ms", " ");
    assert " " + "42 ms" + " " == m;
  }

  lemma PieceChars(m: string)
    requires m == " 42 ms "
    ensures ':' !in m && 'h' !in m
    ensures Trimmed("42 ms") && !IsDigit("42 ms"[4])
  {
  }

  /** Padding around text that does not end in a digit is trimmed, and the text is no integer. */
  lemma PaddedNotANumber(sp1: string, piece: string, sp2: string)
    requires AllSpace(sp1) && AllSpace(sp2) && Trimmed(piece)
    requires |piece| > 0 && !IsDigit(piece[|piece| - 1])
    ensures Atoi(TrimSpace(sp1 + piece + sp2)).None?
  {
    TrimSpacePadded(sp1, piece, sp2);
  }

  /** A 64-bit integer written between the first ':' and the "24h" marker of the eighth cell is read back. */
  lemma TtfbRoundTrip(cells: seq<Cell>, a: string, sp1: string, ms: int, sp2: string, t: string)
    requires ':' !in a && !Contains(a, "24h") && AllSpace(sp1) && AllSpace(sp2)
    requires MinInt64 <= ms <= MaxInt64
    requires t == [] || StartsWith(t, "24h")
    requires |cells| > 7 && cells[7].text == a + ":" + sp1 + IntText(ms) + sp2 + t
    ensures ParseTtfb(cells) == Ok(ms)
  {
    var x := IntText(ms);
    var m := sp1 + x + sp2;
    PaddedInt(sp1, ms, sp2);
    Regroup(a, ":", sp1, x, sp2, t);
    TtfbFirstPiece(cells, a, m, t);
  }

  /** With one ':' before the marker, the piece after it is what is read. */
  lemma TtfbFirstPiece(cells: seq<Cell>, a: string, m: string, t: string)
    requires ':' !in a && ':' !in m && 'h' !in m && !Contains(a, "24h")
    requires t == [] || StartsWith(t, "24h")
    requires |cells| > 7 && cells[7].text == a + ":" + m + t
    ensures ParseTtfb(cells) == Ok(match Atoi(TrimSpace(m)) case Some(i) => i case None => 0)
  {
    var p := a + [':'] + m;
    assert cells[7].text == p + t;
    NoColonDay(a, m);
    BeforeDay(p, t);
    SplitPair(a, ':', m);
  }

  lemma NoColonDay(a: string, m: string)
    requires 'h' !in m && !Contains(a, "24h")
    ensures !Contains(a + [':'] + m, "24h")
  {
    assert 'h' !in [':'] + m;
    NoDayAfter(a, [':'] + m);
    assert a + [':'] + m == a + ([':'] + m);
  }

  /** The bandwidth text after '@' without a note: padding around the rate. */
  lemma RateTextPlain(sp2: string, rate: string, sp3: string)
    requires AllSpace(sp2) && AllSpace(sp3)
    requires Trimmed(rate) && '(' !in rate
    ensures RateText(sp2 + rate + sp3) == rate
  {
    TrimSpacePadded(sp2, rate, sp3);
    AvoidsPattern(rate, "(", 0);
    SplitNone(rate, "(");
    TrimSpaceOfTrimmed(rate);
  }

  /** The bandwidth text after '@' with a note: padding, the rate, padding, "(...)", padding. */
  lemma RateTextNoted(sp2: string, rate: string, sp3: string, note: string, sp4: string)
    requires AllSpace(sp2) && AllSpace(sp3) && AllSpace(sp4)
    requires Trimmed(rate) && |rate| > 0 && '(' !in rate
    requires |note| > 0 && note[0] == '(' && Trimmed(note)
    ensures RateText(sp2 + (rate + sp3 + note) + sp4) == rate
  {
    var w := rate + sp3;
    var v := w + note;
    SpaceAvoids(sp3, '(');
    assert Trimmed(v) by {
      assert v[0] == rate[0];
      assert v[|v| - 1] == note[|note| - 1];
    }
    TrimSpacePadded(sp2, v, sp4);
    BeforeMark(w, '(', note);
    TrimSpaceRight(rate, sp3);
  }

  /** The bandwidth text after '@': padding, the rate, then optionally padding and a "(...)" note. */
  lemma RateTextOf(sp2: string, rate: string, sp3: string, note: string, sp4: string)
    requires AllSpace(sp2) && AllSpace(sp3) && AllSpace(sp4)
    requires Trimmed(rate) && |rate| > 0 && '(' !in rate
    requires note == [] || (note[0] == '(' && Trimmed(note))
    ensures RateText(sp2 + rate + sp3 + note + sp4) == rate
  {
    if note == [] {
      SpaceConcat(sp3, sp4);
      assert sp2 + rate + sp3 + note + sp4 == sp2 + rate + (sp3 + sp4);
      RateTextPlain(sp2, rate, sp3 + sp4);
    } else {
      assert sp2 + rate + sp3 + note + sp4 == sp2 + (rate + sp3 + note) + sp4;
      RateTextNoted(sp2, rate, sp3, note, sp4);
    }
  }

  /** The traffic text before '@': a written size and its padding, trimmed and converted. */
  lemma TrafficOf(n: nat, gap: string, u: SizeUnit, binary: bool, upper: bool, sp1: string)
    requires AllSpace(gap) && AllSpace(sp1)
    ensures '@' !in SizeString(n, gap, u, binary, upper) + sp1
    ensures HumanReadableToInt(TrimSpace(SizeString(n, gap, u, binary, upper) + sp1)) == Ok(n * UnitBytes(u))
  {
    var size := SizeString(n, gap, u, binary, upper);
    RenderedSize(n, gap, u, binary, upper);
    SpaceAvoids(sp1, '@');
    TrimSpaceRight(size, sp1);
    SizeRoundTrip(n, gap, u, binary, upper);
  }

  /** The rate text after '@' holds no '@' and reads back as the written bandwidth. */
  lemma RateOf(sp2: string, m: nat, gap2: string, gigabit: bool, upper2: bool, sp3: string, note: string, sp4: string)
    requires AllSpace(sp2) && AllSpace(gap2) && AllSpace(sp3) && AllSpace(sp4)
    requires note == [] || (note[0] == '(' && Trimmed(note) && '@' !in note)
    ensures var rest := sp2 + BandwidthString(m, gap2, gigabit, upper2) + sp3 + note + sp4;
      && '@' !in rest
      && BandwidthToMbps(RateText(rest)) == Ok(if gigabit then 1000 * m else m)
  {
    var rate := BandwidthString(m, gap2, gigabit, upper2);
    RenderedBandwidth(m, gap2, gigabit, upper2);
    SpaceAvoids(sp2, '@');
    SpaceAvoids(sp3, '@');
    SpaceAvoids(sp4, '@');
    RateTextOf(sp2, rate, sp3, note, sp4);
    BandwidthRoundTrip(m, gap2, gigabit, upper2);
  }

  /**
   * "<size> @ <bandwidth> (<note>)" in the eleventh cell is read back as
   * whole GiB of traffic and Mbps of bandwidth.
   */
  lemma UploadRoundTrip(cells: seq<Cell>,
                        n: nat, gap: string, u: SizeUnit, binary: bool, upper: bool, sp1: string,
                        sp2: string, m: nat, gap2: string, gigabit: bool, upper2: bool,
                        sp3: string, note: string, sp4: string)
    requires AllSpace(gap) && AllSpace(sp1) && AllSpace(sp2) && AllSpace(gap2) && AllSpace(sp3) && AllSpace(sp4)
    requires note == [] || (note[0] == '(' && Trimmed(note) && '@' !in note)
    requires |cells| > 10
    requires cells[10].text == SizeString(n, gap, u, binary, upper) + sp1 + "@"
                               + sp2 + BandwidthString(m, gap2, gigabit, upper2) + sp3 + note + sp4
    ensures ParseUpload(cells) == Ok(Upload(ToGiB(n * UnitBytes(u)), if gigabit then 1000 * m else m))
    ensures u == Giga ==> ParseUpload(cells) == Ok(Upload(n, if gigabit then 1000 * m else m))
  {
    var size := SizeString(n, gap, u, binary, upper);
    var rate := BandwidthString(m, gap2, gigabit, upper2);
    var w := size + sp1;
    var rest := sp2 + rate + sp3 + note + sp4;
    TrafficOf(n, gap, u, binary, upper, sp1);
    RateOf(sp2, m, gap2, gigabit, upper2, sp3, note, sp4);
    RegroupAround(size, sp1, "@", sp2, rate, sp3, note, sp4);
    SplitPair(w, '@', rest);
    if u == Giga {
      WholeGiB(n);
    }
  }

  /** A 64-bit integer in the last cell, with any padding, is read back as the weight. */
  lemma WeightRoundTrip(cells: seq<Cell>, sp1: string, w: int, sp2: string)
    requires AllSpace(sp1) && AllSpace(sp2) && MinInt64 <= w <= MaxInt64
    requires |cells| > 0 && cells[|cells| - 1].text == sp1 + IntText(w) + sp2
    ensures ParseWeight(cells) == w
  {
    PaddedInt(sp1, w, sp2);
  }

  /** The identifier written, with any padding, in the first cell's first element is read back. */
  lemma IdRoundTrip(cells: seq<Cell>, sp1: string, id: string, sp2: string)
    requires AllSpace(sp1) && AllSpace(sp2) && Trimmed(id)
    requires |cells| > 0 && |cells[0].children| > 0 && cells[0].children[0].text == sp1 + id + sp2
    ensures ParseId(cells).id == id
  {
    TrimSpacePadded(sp1, id, sp2);
  }

  // ---------------------------------------------------------------------
  // The sample row: "X<br>Acme", "Berlin<br>DE", "5GiB (50%)", "3GiB @ 100Mbps (avg)", "7"

  lemma SampleIsp(cells: seq<Cell>)
    requires |cells| > 2 && cells[2].html == Some("X<br/>Acme")
    ensures ParseIsp(cells) == Ok("Acme")
  {
    AvoidsPattern("X", LineBreak, 0);
    assert "X" + RenderedBreak + "Acme" + "" == "X<br/>Acme";
    IspRoundTrip(cells, "X", "Acme", "");
  }

  lemma SampleLocation(cells: seq<Cell>)
    requires |cells| > 3 && cells[3].html == Some("Berlin<br/>DE")
    ensures ParseLocation(cells) == Ok(Location("Berlin", "DE"))
  {
    AvoidsPattern("Berlin", LineBreak, 0);
    assert "Berlin" + RenderedBreak + "DE" + "" == "Berlin<br/>DE";
    LocationRoundTrip(cells, "Berlin", "DE", "");
  }

  lemma SampleDisk(cells: seq<Cell>)
    requires |cells| > 4 && cells[4].html == Some("5GiB (50%)")
    ensures ParseDisk(cells) == Ok(5)
  {
    assert SizeString(5, "", Giga, true, true) + " " + "(50%)" == "5GiB (50%)";
    DiskCellRoundTrip(cells, 5, "", Giga, true, true, " ", "(50%)");
  }

  lemma SampleUploadText()
    ensures SizeString(3, "", Giga, true, true) + " " + "@" + " " + BandwidthString(100, "", false, true)
            + " " + "(avg)" + "" == "3GiB @ 100Mbps (avg)"
  {
    assert NatText(10) == "10";
    assert NatText(100) == "100";
  }

  lemma SampleUpload(cells: seq<Cell>)
    requires |cells| > 10 && cells[10].text == "3GiB @ 100Mbps (avg)"
    ensures ParseUpload(cells) == Ok(Upload(3, 100))
  {
    SampleUploadText();
    UploadRoundTrip(cells, 3, "", Giga, true, true, " ", " ", 100, "", false, true, " ", "(avg)", "");
  }

  /** The latency is read from before "24h": a cell that opens with "24h: 42 ms" has no ':' there. */
  lemma SampleTtfbPanics(cells: seq<Cell>)
    requires |cells| > 7 && cells[7].text == "24h: 42 ms"
    ensures ParseTtfb(cells) == Panic(IndexOutOfRange)
  {
    assert "24h: 42 ms" == "" + "24h" + ": 42 ms";
    DayBorderFree();
    SplitAfter("", "24h", ": 42 ms");
  }

  lemma SampleTtfb(cells: seq<Cell>)
    requires |cells| > 7 && cells[7].text == "TTFB: 42 24h: 50"
    ensures ParseTtfb(cells) == Ok(42)
  {
    assert NatText(42) == "42";
    assert "TTFB" + ":" + " " + IntText(42) + " " + "24h: 50" == "TTFB: 42 24h: 50";
    AvoidsPattern("TTFB", "24h", 2);
    TtfbRoundTrip(cells, "TTFB", " ", 42, " ", "24h: 50");
  }

  /** A label with an 'h' of its own is fine: only the "24h" marker ends the latency text. */
  lemma SampleTtfbHourLabel(cells: seq<Cell>)
    requires |cells| > 7 && cells[7].text == "1h: 42 24h: 50"
    ensures ParseTtfb(cells) == Ok(42)
  {
    assert NatText(42) == "42";
    assert "1h" + ":" + " " + IntText(42) + " " + "24h: 50" == "1h: 42 24h: 50";
    AvoidsPattern("1h", "24h", 0);
    TtfbRoundTrip(cells, "1h", " ", 42, " ", "24h: 50");
  }

  /** Both leftovers go: " a/>b>c " clears to "abc". */
  lemma SampleClear()
    ensures Clear(" a/>b>c ") == "abc"
  {
    var s := " a/>b>c ";
    SampleClearSlash(s);
    SampleClearGt(" a" + "b>c ");
    ClearSpec(s);
  }

  lemma SampleClearSlash(s: string)
    requires s == " a/>b>c "
    ensures Remove(s, "/>") == " a" + "b>c "
  {
    assert s == " a" + "/>" + "b>c ";
    RemoveAfter(" a", "/>", "b>c ");
    AvoidsPattern("b>c ", "/>", 0);
    RemoveAbsent("b>c ", "/>");
  }

  lemma SampleClearGt(t: string)
    requires t == " a" + "b>c "
    ensures TrimSpace(Remove(t, ">")) == "abc"
  {
    assert t == " ab" + ">" + "c ";
    RemoveAfter(" ab", ">", "c ");
    AvoidsPattern("c ", ">", 0);
    RemoveAbsent("c ", ">");
    assert " ab" + "c " == " " + "abc" + " ";
    TrimSpacePadded(" ", "abc", " ");
  }

  lemma SampleWeight(cells: seq<Cell>)
    requires |cells| > 0 && cells[|cells| - 1].text == "7"
    ensures ParseWeight(cells) == 7
  {
    assert "" + IntText(7) + "" == "7";
    WeightRoundTrip(cells, "", 7, "");
  }

  /** A word that opens with neither a sign nor a digit is not an integer, trimmed or not. */
  lemma WordNotANumber(t: string)
    requires Trimmed(t) && |t| > 0 && !IsDigit(t[0]) && t[0] != '+' && t[0] != '-'
    ensures Atoi(TrimSpace(t)) == None
  {
    TrimSpaceOfTrimmed(t);
    AtoiRejectsLeading(t);
  }

  lemma BadIsNotANumber()
    ensures Atoi(TrimSpace("bad")) == None
  {
    var bad := "bad";
    assert bad[0] == 'b' && bad[|bad| - 1] == 'd';
    WordNotANumber(bad);
  }

  /** A weight that is not a number becomes the sentinel -1. */
  lemma SampleBadWeight(cells: seq<Cell>)
    requires |cells| > 0 && cells[|cells| - 1].text == "bad"
    ensures ParseWeight(cells) == -1
  {
    assert LastText(cells) == "bad";
    BadIsNotANumber();
  }
}

=== FILE: select.dfy ===
/**
 * Selecting the positions of a sequence that satisfy a predicate, in
 * order: what a loop over the table rows that skips some of them visits.
 */
module Select {
  import opened Outcome

  /** The positions of `s` whose element satisfies `p`, in increasing order. */
  function Indices<T>(s: seq<T>, p: T -> bool): (idx: seq<nat>)
    ensures forall j :: 0 <= j < |idx| ==> idx[j] < |s| && p(s[idx[j]])
    ensures forall j, k :: 0 <= j < k < |idx| ==> idx[j] < idx[k]
    ensures forall i :: 0 <= i < |s| && p(s[i]) ==> i in idx
    decreases |s|
  {
    if |s| == 0 then []
    else
      var prior := Indices(s[..|s| - 1], p);
      if p(s[|s| - 1]) then prior + [|s| - 1] else prior
  }

  /** The positions of `s` that satisfy `p`, as a set. */
  function Positions<T>(s: seq<T>, p: T -> bool): set<nat> {
    set i: nat | i < |s| && p(s[i])
  }

  /** Extending a sequence by one element adds at most its own position. */
  lemma PositionsStep<T>(s: seq<T>, p: T -> bool)
    requires |s| > 0
    ensures |s| - 1 !in Positions(s[..|s| - 1], p)
    ensures Positions(s, p) == Positions(s[..|s| - 1], p) + (if p(s[|s| - 1]) then {|s| - 1} else {})
  {
    var n := |s| - 1;
    forall i: nat | i < n ensures (i < n && p(s[..n][i])) <==> p(s[i]) {
      assert s[..n][i] == s[i];
    }
  }

  /** Selection visits every satisfying position exactly once. */
  lemma {:induction false} IndicesCount<T>(s: seq<T>, p: T -> bool)
    ensures |Indices(s, p)| == |Positions(s, p)|
    decreases |s|
  {
    if |s| > 0 {
      IndicesCount(s[..|s| - 1], p);
      PositionsStep(s, p);
    }
  }

  /** An element that fails `p`, wherever it sits, is never selected. */
  lemma {:induction false} IndicesSkip<T>(a: seq<T>, x: T, b: seq<T>, p: T -> bool)
    requires !p(x)
    ensures |Indices(a + [x] + b, p)| == |Indices(a + b, p)|
    decreases |b|
  {
    if |b| == 0 {
      assert (a + [x] + b)[..|a|] == a;
      assert a + b == a;
    } else {
      var n := |b| - 1;
      assert (a + [x] + b)[..|a| + 1 + n] == a + [x] + b[..n];
      assert (a + b)[..|a| + n] == a + b[..n];
      IndicesSkip(a, x, b[..n], p);
    }
  }

  // ---------------------------------------------------------------------
  // Parsing the selected elements

  /** Parses the elements that satisfy `keep`, in order, stopping at the first failure. */
  function Collect<T, R>(s: seq<T>, keep: T -> bool, parse: T -> Result<R>): Result<seq<R>>
    decreases |s|
  {
    if |s| == 0 then Ok([])
    else
      var prior :- Collect(s[..|s| - 1], keep, parse);
      if !keep(s[|s| - 1]) then Ok(prior)
      else
        var last :- parse(s[|s| - 1]);
        Ok(prior + [last])
  }

  /** Collection fails exactly when a selected element fails to parse. */
  lemma {:induction false} CollectOk<T, R>(s: seq<T>, keep: T -> bool, parse: T -> Result<R>)
    ensures Collect(s, keep, parse).Ok? <==> forall i :: 0 <= i < |s| && keep(s[i]) ==> parse(s[i]).Ok?
    decreases |s|
  {
    if |s| > 0 {
      var n := |s| - 1;
      CollectOk(s[..n], keep, parse);
      assert forall i :: 0 <= i < n ==> s[..n][i] == s[i];
    }
  }

  /** One result per selected element, in order. */
  lemma {:induction false} CollectValues<T, R>(s: seq<T>, keep: T -> bool, parse: T -> Result<R>)
    requires Collect(s, keep, parse).Ok?
    ensures |Collect(s, keep, parse).value| == |Indices(s, keep)|
    ensures forall j :: 0 <= j < |Indices(s, keep)| ==>
      parse(s[Indices(s, keep)[j]]) == Ok(Collect(s, keep, parse).value[j])
    decreases |s|
  {
    if |s| > 0 {
      var n := |s| - 1;
      CollectValues(s[..n], keep, parse);
      assert forall i :: 0 <= i < n ==> s[..n][i] == s[i];
    }
  }

  /** An element that is not selected, wherever it sits, is never parsed. */
  lemma {:induction false} CollectSkips<T, R>(a: seq<T>, x: T, b: seq<T>, keep: T -> bool, parse: T -> Result<R>)
    requires !keep(x)
    ensures Collect(a + [x] + b, keep, parse) == Collect(a + b, keep, parse)
    decreases |b|
  {
    if |b| == 0 {
      assert (a + [x] + b)[..|a|] == a;
      assert a + b == a;
    } else {
      var n := |b| - 1;
      assert (a + [x] + b)[..|a| + 1 + n] == a + [x] + b[..n];
      assert (a + [x] + b)[|a| + 1 + n] == b[n];
      assert (a + b)[..|a| + n] == a + b[..n];
      assert (a + b)[|a| + n] == b[n];
      CollectSkips(a, x, b[..n], keep, parse);
    }
  }
}

=== FILE: units.dfy ===
/**
 * Unit normalisation: human-readable sizes to bytes and whole GiB, and
 * bandwidth strings to Mbps (api/index.go, `humanReadableToInt`,
 * `bandwidthToMbps`, `toGiB` and their suffix tables).
 */
module Units {
  import opened Outcome
  import opened GoStrings
  import opened GoNumbers

  const GiB: int := 0x4000_0000

  /** `sizeSuffix`: two-letter size suffixes and their byte multipliers. */
  const SizeSuffix: map<string, int> := map[
    "kb" := 1024,
    "mb" := 0x10_0000,
    "gb" := 0x4000_0000,
    "tb" := 0x100_0000_0000,
    "pb" := 0x4_0000_0000_0000
  ]

  /** `bandwidthSuffix`: four-letter bandwidth suffixes and their Mbps multipliers. */
  const BandwidthSuffix: map<string, int> := map["mbps" := 1, "gbps" := 1000]

  /** The text `humanReadableToInt` inspects: lower-cased, then its first 'i' removed. */
  function SizeText(value: string): string {
    ReplaceFirst(ToLower(value), "i", "")
  }

  /**
   * `humanReadableToInt`. Go slices the last two BYTES off before checking
   * the length, so a text shorter than two bytes panics. Every suffix in the
   * table is ASCII, so the last two bytes spell one exactly when the last two
   * characters do, and then "more than two bytes" is "more than two characters".
   */
  function HumanReadableToInt(value: string): (r: Result<int>)
    ensures r.Panic? <==> Utf8Len(SizeText(value)) < 2
    ensures r.Panic? ==> r.fault == SliceOutOfRange
    ensures r.Ok? && r.value != 0 ==>
      var v := SizeText(value); |v| > 2 && v[|v| - 2..] in SizeSuffix
  {
    SizeOf(SizeText(value))
  }

  /** The rest of `humanReadableToInt`, once the text is normalised. */
  function SizeOf(v: string): Result<int> {
    if Utf8Len(v) < 2 then Panic(SliceOutOfRange)
    else if |v| <= 2 then Ok(0)   // logged as an invalid size
    else Ok(SizeWith(v[..|v| - 2], v[|v| - 2..]))
  }

  /** The size a number followed by a two-letter suffix names; 0 when either is not understood. */
  function SizeWith(number: string, suffix: string): int {
    if suffix !in SizeSuffix then 0   // logged as an invalid size
    else
      match ParseDecimal(TrimSpace(number))
      case Some(x) => Scale(SizeSuffix[suffix], x)
      case None => 0                  // logged as an invalid size
  }

  /** `int(math.Floor(float64(multiplier) * size))`, on exact reals. */
  function Scale(multiplier: int, size: real): int {
    (multiplier as real * size).Floor
  }

  /** `toGiB`: whole GiB in a byte count, by Go's truncating division. */
  function ToGiB(bytes: int): (g: int)
    ensures bytes >= 0 ==> g >= 0 && g * GiB <= bytes < (g + 1) * GiB
    ensures bytes < 0 ==> g <= 0 && (g - 1) * GiB < bytes <= g * GiB
  {
    GoDiv(bytes, GiB)
  }

  /** `bandwidthToMbps`: like `humanReadableToInt` with four-byte suffixes and no 'i' removal. */
  function BandwidthToMbps(value: string): (r: Result<int>)
    ensures r.Panic? <==> Utf8Len(ToLower(value)) < 4
    ensures r.Panic? ==> r.fault == SliceOutOfRange
    ensures r.Ok? && r.value != 0 ==>
      var v := ToLower(value); |v| > 4 && v[|v| - 4..] in BandwidthSuffix
  {
    var v := ToLower(value);
    if Utf8Len(v) < 4 then Panic(SliceOutOfRange)
    else if |v| > 4 && v[|v| - 4..] in BandwidthSuffix then
      match ParseDecimal(TrimSpace(v[..|v| - 4]))
      case Some(x) => Ok(Scale(BandwidthSuffix[v[|v| - 4..]], x))
      case None => Ok(0)
    else Ok(0)
  }

  // ---------------------------------------------------------------------
  // Rendering sizes and bandwidths, and reading them back

  datatype SizeUnit = Kilo | Mega | Giga | Tera | Peta

  /** The unit's letter, upper or lower case. */
  function UnitLetter(u: SizeUnit, upper: bool): char {
    match u
    case Kilo => if upper then 'K' else 'k'
    case Mega => if upper then 'M' else 'm'
    case Giga => if upper then 'G' else 'g'
    case Tera => if upper then 'T' else 't'
    case Peta => if upper then 'P' else 'p'
  }

  /** Bytes per unit, written out independently of the suffix table. */
  function UnitBytes(u: SizeUnit): int {
    match u
    case Kilo => 1024
    case Mega => 1024 * 1024
    case Giga => 1024 * 1024 * 1024
    case Tera => 1024 * 1024 * 1024 * 1024
    case Peta => 1024 * 1024 * 1024 * 1024 * 1024
  }

  /** "KB", "KiB", "kb" or "kib" (and likewise for the other units). */
  function SizeLabel(u: SizeUnit, binary: bool, upper: bool): string {
    [UnitLetter(u, upper)] + (if binary then "i" else "") + (if upper then "B" else "b")
  }

  /** `n`, optional white space, then a size written: what a node's disk or traffic cell shows. */
  function SizeString(n: nat, gap: string, u: SizeUnit, binary: bool, upper: bool): string {
    NatText(n) + gap + SizeLabel(u, binary, upper)
  }

  lemma LowerConcat(a: string, b: string)
    ensures ToLower(a + b) == ToLower(a) + ToLower(b)
  {
  }

  /** Text without ASCII capitals is its own lower case. */
  lemma LowerNoCapitals(s: string)
    requires forall i :: 0 <= i < |s| ==> !('A' <= s[i] <= 'Z')
    ensures ToLower(s) == s
  {
  }

  lemma NoCapitalsInNumber(n: nat, gap: string)
    requires AllSpace(gap)
    ensures ToLower(NatText(n) + gap) == NatText(n) + gap
    ensures 'i' !in NatText(n) + gap
  {
    var s := NatText(n) + gap;
    assert forall i :: 0 <= i < |s| ==> IsDigit(s[i]) || IsSpace(s[i]);
    LowerNoCapitals(s);
  }

  /** A number followed by white space trims to the number. */
  lemma TrimNumber(n: nat, gap: string)
    requires AllSpace(gap)
    ensures TrimSpace(NatText(n) + gap) == NatText(n)
  {
    var t := NatText(n);
    assert !IsSpace(t[0]) && !IsSpace(t[|t| - 1]);
    TrimSpacePadded("", t, gap);
    assert "" + t + gap == t + gap;
  }

  /** The lower case of a size label. */
  function LowerSizeLabel(u: SizeUnit, binary: bool): string {
    [UnitLetter(u, false)] + (if binary then "i" else "") + "b"
  }

  lemma LowerOfSizeString(n: nat, gap: string, u: SizeUnit, binary: bool, upper: bool)
    requires AllSpace(gap)
    ensures ToLower(SizeString(n, gap, u, binary, upper)) == NatText(n) + gap + LowerSizeLabel(u, binary)
  {
    var prefix := NatText(n) + gap;
    var written := SizeLabel(u, binary, upper);
    LowerConcat(prefix, written);
    NoCapitalsInNumber(n, gap);
    assert ToLower(written) == LowerSizeLabel(u, binary);
  }

  lemma DropUnitI(head: string, binary: bool)
    requires 'i' !in head
    ensures ReplaceFirst(head + (if binary then "i" else "") + "b", "i", "") == head + "b"
  {
    ContainsChar(head, 'i');
    if binary {
      IndexAfter(head, "i", "b");
    } else {
      ContainsChar(head + "b", 'i');
      assert head + "" + "b" == head + "b";
    }
  }

  /** Lower-casing and 'i' removal turn any spelling of a size into `<n><gap><letter>b`. */
  lemma SizeTextOfSizeString(n: nat, gap: string, u: SizeUnit, binary: bool, upper: bool)
    requires AllSpace(gap)
    ensures SizeText(SizeString(n, gap, u, binary, upper)) == NatText(n) + gap + [UnitLetter(u, false), 'b']
  {
    var head := NatText(n) + gap + [UnitLetter(u, false)];
    LowerOfSizeString(n, gap, u, binary, upper);
    LowerLabelParts(n, gap, u, binary);
    DropUnitI(head, binary);
    SizeTextSteps(SizeString(n, gap, u, binary, upper), head + (if binary then "i" else "") + "b", head + "b");
    assert head + "b" == NatText(n) + gap + [UnitLetter(u, false), 'b'];
  }

  /** The lower-cased label splits into the part before any 'i', the optional 'i', and "b". */
  lemma LowerLabelParts(n: nat, gap: string, u: SizeUnit, binary: bool)
    requires AllSpace(gap)
    ensures var head := NatText(n) + gap + [UnitLetter(u, false)];
      && 'i' !in head
      && NatText(n) + gap + LowerSizeLabel(u, binary) == head + (if binary then "i" else "") + "b"
  {
    NoCapitalsInNumber(n, gap);
  }

  lemma SizeTextSteps(value: string, lowered: string, dropped: string)
    requires ToLower(value) == lowered && ReplaceFirst(lowered, "i", "") == dropped
    ensures SizeText(value) == dropped
  {
  }

  /** The suffix table and the unit definitions agree. */
  lemma SuffixOfUnit(u: SizeUnit)
    ensures [UnitLetter(u, false), 'b'] in SizeSuffix
    ensures SizeSuffix[[UnitLetter(u, false), 'b']] == UnitBytes(u)
  {
    match u
    case Kilo => assert [UnitLetter(u, false), 'b'] == "kb";
    case Mega => assert [UnitLetter(u, false), 'b'] == "mb";
    case Giga => assert [UnitLetter(u, false), 'b'] == "gb";
    case Tera => assert [UnitLetter(u, false), 'b'] == "tb";
    case Peta => assert [UnitLetter(u, false), 'b'] == "pb";
  }

  /** A text that normalises to a number followed by a known suffix is that many units. */
  lemma SizeOfKnownSuffix(value: string, number: string, suffix: string, x: real)
    requires SizeText(value) == number + suffix
    requires suffix in SizeSuffix && |number| > 0
    requires ParseDecimal(TrimSpace(number)) == Some(x)
    ensures HumanReadableToInt(value) == Ok(Scale(SizeSuffix[suffix], x))
  {
    SizeOfKnown(SizeText(value), number, suffix, x);
    ReadsAsSizeOf(value);
  }

  lemma SizeOfKnown(v: string, number: string, suffix: string, x: real)
    requires v == number + suffix
    requires suffix in SizeSuffix && |number| > 0
    requires ParseDecimal(TrimSpace(number)) == Some(x)
    ensures SizeOf(v) == Ok(Scale(SizeSuffix[suffix], x))
  {
    SizeOfSplit(v, number, suffix);
    SizeWithKnown(number, suffix, x);
  }

  lemma ReadsAsSizeOf(value: string)
    ensures HumanReadableToInt(value) == SizeOf(SizeText(value))
  {
  }

  /** A text longer than its two-letter suffix is read as its number with that suffix. */
  lemma SizeOfSplit(v: string, number: string, suffix: string)
    requires v == number + suffix && |suffix| == 2 && |number| > 0
    ensures SizeOf(v) == Ok(SizeWith(number, suffix))
  {
    SuffixSplit(v, number, suffix);
  }

  lemma SizeWithKnown(number: string, suffix: string, x: real)
    requires suffix in SizeSuffix && ParseDecimal(TrimSpace(number)) == Some(x)
    ensures SizeWith(number, suffix) == Scale(SizeSuffix[suffix], x)
  {
  }

  /** The last two characters of `number + suffix`, for a two-letter suffix, are the suffix. */
  lemma SuffixSplit(v: string, number: string, suffix: string)
    requires v == number + suffix && |suffix| == 2 && |number| > 0
    ensures Utf8Len(v) >= 2 && |v| > 2
    ensures v[|v| - 2..] == suffix && v[..|v| - 2] == number
  {
  }

  lemma ScaleWhole(a: int, n: nat)
    ensures Scale(a, n as real) == a * n
  {
    assert a as real * n as real == (a * n) as real;
  }

  /** Reading a rendered size gives the number of bytes it names, whatever its spelling. */
  lemma SizeRoundTrip(n: nat, gap: string, u: SizeUnit, binary: bool, upper: bool)
    requires AllSpace(gap)
    ensures HumanReadableToInt(SizeString(n, gap, u, binary, upper)) == Ok(n * UnitBytes(u))
  {
    var suffix := [UnitLetter(u, false), 'b'];
    SizeTextOfSizeString(n, gap, u, binary, upper);
    TrimNumber(n, gap);
    ParseDecimalOfNatText(n);
    SuffixOfUnit(u);
    SizeOfKnownSuffix(SizeString(n, gap, u, binary, upper), NatText(n) + gap, suffix, n as real);
    ScaleWhole(UnitBytes(u), n);
  }

  lemma WholeGiB(n: nat)
    ensures ToGiB(n * GiB) == n
  {
    assert (n * GiB) / GiB == n;
  }

  /** A whole number of GiB, however spelled, comes back as that many GiB. */
  lemma DiskRoundTrip(n: nat, gap: string, binary: bool, upper: bool)
    requires AllSpace(gap)
    ensures HumanReadableToInt(SizeString(n, gap, Giga, binary, upper)) == Ok(n * GiB)
    ensures ToGiB(n * GiB) == n
  {
    SizeRoundTrip(n, gap, Giga, binary, upper);
    WholeGiB(n);
  }

  /** "Mbps" / "Gbps", in mixed or lower case. */
  function BandwidthLabel(gigabit: bool, upper: bool): string {
    [if gigabit then (if upper then 'G' else 'g') else (if upper then 'M' else 'm')] + "bps"
  }

  function BandwidthString(n: nat, gap: string, gigabit: bool, upper: bool): string {
    NatText(n) + gap + BandwidthLabel(gigabit, upper)
  }

  lemma BandwidthOfKnownSuffix(value: string, number: string, suffix: string, x: real)
    requires ToLower(value) == number + suffix
    requires suffix in BandwidthSuffix && |number| > 0
    requires ParseDecimal(TrimSpace(number)) == Some(x)
    ensures BandwidthToMbps(value) == Ok(Scale(BandwidthSuffix[suffix], x))
  {
    var v := ToLower(value);
    assert |suffix| == 4;
    assert v[|v| - 4..] == suffix;
    assert v[..|v| - 4] == number;
  }

  lemma LowerOfBandwidthString(n: nat, gap: string, gigabit: bool, upper: bool)
    requires AllSpace(gap)
    ensures ToLower(BandwidthString(n, gap, gigabit, upper)) == NatText(n) + gap + (if gigabit then "gbps" else "mbps")
  {
    var prefix := NatText(n) + gap;
    var written := BandwidthLabel(gigabit, upper);
    LowerConcat(prefix, written);
    NoCapitalsInNumber(n, gap);
    assert ToLower(written) == (if gigabit then "gbps" else "mbps");
  }

  /** Reading a rendered bandwidth gives it in Mbps. */
  lemma BandwidthRoundTrip(n: nat, gap: string, gigabit: bool, upper: bool)
    requires AllSpace(gap)
    ensures BandwidthToMbps(BandwidthString(n, gap, gigabit, upper)) == Ok(if gigabit then 1000 * n else n)
  {
    var suffix := if gigabit then "gbps" else "mbps";
    LowerOfBandwidthString(n, gap, gigabit, upper);
    TrimNumber(n, gap);
    ParseDecimalOfNatText(n);
    BandwidthOfKnownSuffix(BandwidthString(n, gap, gigabit, upper), NatText(n) + gap, suffix, n as real);
    BandwidthMultiplier(n, gigabit);
  }

  lemma BandwidthMultiplier(n: nat, gigabit: bool)
    ensures Scale(BandwidthSuffix[if gigabit then "gbps" else "mbps"], n as real) == (if gigabit then 1000 * n else n)
  {
    ScaleWhole(BandwidthSuffix[if gigabit then "gbps" else "mbps"], n);
  }

  // ---------------------------------------------------------------------
  // Worked examples

  /** "10GiB" is 10 GiB. */
  lemma TenGiB()
    ensures HumanReadableToInt("10GiB") == Ok(10 * GiB)
    ensures ToGiB(HumanReadableToInt("10GiB").value) == 10
  {
    assert NatText(10) == "10";
    assert SizeString(10, "", Giga, true, true) == "10GiB";
    DiskRoundTrip(10, "", true, true);
  }

  /** "1024MiB" is 1 GiB. */
  lemma KibiMebibytes()
    ensures HumanReadableToInt("1024MiB") == Ok(GiB)
    ensures ToGiB(HumanReadableToInt("1024MiB").value) == 1
  {
    assert NatText(1024) == "1024";
    assert SizeString(1024, "", Mega, true, true) == "1024MiB";
    SizeRoundTrip(1024, "", Mega, true, true);
    WholeGiB(1);
  }

  /** "bogus" has no known suffix and reads as 0. */
  lemma BogusSize()
    ensures HumanReadableToInt("bogus") == Ok(0)
  {
    BogusText();
    assert "bogus"[3..] == "us";
    SizeOfUnknownSuffix("bogus");
  }

  lemma BogusText()
    ensures SizeText("bogus") == "bogus"
  {
    var bogus := "bogus";
    LowerNoCapitals(bogus);
    ContainsChar(bogus, 'i');
    ReplaceFirstSpec(bogus, "i", "");
    SizeTextSteps(bogus, bogus, bogus);
  }

  /** A text long enough to slice whose last two characters are no known suffix reads as 0. */
  lemma SizeOfUnknownSuffix(value: string)
    requires |SizeText(value)| > 2
    requires SizeText(value)[|SizeText(value)| - 2..] !in SizeSuffix
    ensures HumanReadableToInt(value) == Ok(0)
  {
  }

  /** A known suffix after something that is not a number reads as 0. */
  lemma SizeOfUnparsableNumber(value: string)
    requires |SizeText(value)| > 2
    requires SizeText(value)[|SizeText(value)| - 2..] in SizeSuffix
    requires ParseDecimal(TrimSpace(SizeText(value)[..|SizeText(value)| - 2])).None?
    ensures HumanReadableToInt(value) == Ok(0)
  {
  }

  /** A bandwidth text long enough to slice whose last four characters are no known suffix reads as 0. */
  lemma BandwidthOfUnknownSuffix(value: string)
    requires |ToLower(value)| > 4
    requires ToLower(value)[|ToLower(value)| - 4..] !in BandwidthSuffix
    ensures BandwidthToMbps(value) == Ok(0)
  {
  }

  /** A known bandwidth suffix after something that is not a number reads as 0. */
  lemma BandwidthOfUnparsableNumber(value: string)
    requires |ToLower(value)| > 4
    requires ToLower(value)[|ToLower(value)| - 4..] in BandwidthSuffix
    requires ParseDecimal(TrimSpace(ToLower(value)[..|ToLower(value)| - 4])).None?
    ensures BandwidthToMbps(value) == Ok(0)
  {
  }

  lemma LowerStrayI()
    ensures SizeText("i10GiB") == "10gib"
  {
    assert ToLower("i10GiB") == "i10gib";
    assert "i10gib" == [] + "i" + "10gib";
    IndexAfter([], "i", "10gib");
  }

  /** The FIRST 'i' goes, wherever it is: a stray leading 'i' leaves "ib" as the suffix. */
  lemma FirstIRemoved()
    ensures SizeText("i10GiB") == "10gib"
    ensures HumanReadableToInt("i10GiB") == Ok(0)
  {
    LowerStrayI();
    assert "10gib"[3..] == "ib";
    SizeOfUnknownSuffix("i10GiB");
  }

  /** "500Mbps" is 500 Mbps. */
  lemma FiveHundredMbps()
    ensures BandwidthToMbps("500Mbps") == Ok(500)
  {
    assert NatText(500) == "500";
    assert BandwidthString(500, "", false, true) == "500Mbps";
    BandwidthRoundTrip(500, "", false, true);
  }

  /** "2Gbps" is 2000 Mbps. */
  lemma TwoGbps()
    ensures BandwidthToMbps("2Gbps") == Ok(2000)
  {
    assert NatText(2) == "2";
    assert BandwidthString(2, "", true, true) == "2Gbps";
    BandwidthRoundTrip(2, "", true, true);
  }

  /** A one-character bandwidth panics: the four-byte slice comes before the length check. */
  lemma ShortBandwidthPanics()
    ensures BandwidthToMbps("x") == Panic(SliceOutOfRange)
  {
    assert ToLower("x") == "x";
  }
}
